=== FILE: README.md ===
# E-Voting polls: a Dafny model

This project models the business rules of a Django e-voting application.
Users create polls, each with at least two choices. They vote once per poll
while the poll's voting window is open, and they browse, edit and delete
their own polls. The model drops HTTP, templates and the ORM. What remains
is a sequential state machine over one immutable store.

The store is `Models.Store`. It holds one table per model (users, polls,
choices, votes), each a sequence of rows with an integer primary key. It
also holds the next value of each auto-increment sequence. Time is an
integer `now` passed to every operation, and the acting user is an explicit
parameter.

## Modules

- `Models`: the rows, the store, and the store's validity. Validity means
  unique keys, keys below their sequence, and no orphaned foreign key. This
  module also holds the derived poll and choice values and the cascading
  deletes.
- `Seqs`: query building blocks (filter, count, first match, key uniqueness
  and sums of counts) and their lemmas. `Sorting`: `order_by('-field')`
  and slicing.
- `Tallies`: vote counts and percentages of a poll's choices.
- `Integrity`: the cascading deletes keep the store valid and remove every
  dependent row.
- `Forms`: the poll form, `clean_end_date`, the default end date, the
  choice forms and the configuration of the set of choice forms.
- `Voting`: the vote view's guard sequence and the invariant that a user
  has at most one vote per poll.
- `Authoring`: the create, edit and delete views. `Editing`: what the edit
  loop does to a poll's choices, and the partial commit of the edit view.
- `Listing`: the index page and "my polls". `Profile`: the profile
  statistics, the newest polls and votes, and the voting history.
- `Lifecycle`: every view keeps the store invariants (validity, one vote
  per user and poll, at least two choices per poll). This holds for any
  sequence of requests by existing users, with the edit view corrected as
  described under Findings.

## Model

| member | source | states |
|---|---|---|
| Models.ChoicesOf | polls/models.py:28 | The poll's choices are exactly the stored choices whose foreign key names the poll. |
| Models.DeleteChoice | polls/models.py:45-47 | Deleting a choice removes exactly that choice and exactly the votes on it. Users, polls and sequences are unchanged. |
| Models.DeletePoll | polls/models.py:27-47 | Deleting a poll removes the poll, exactly its choices, and exactly the votes on its choices. Users are unchanged. |
| Models.DeleteUser | polls/models.py:13-47 | Deleting a user removes the user, the polls they created, those polls' choices and the votes on them, and every vote the user cast. Nothing else is removed. |
| Integrity.DeleteChoiceValid | polls/models.py:45-47 | Deleting a choice keeps keys unique and leaves no vote without its choice. |
| Integrity.DeletePollValid | polls/models.py:27-47 | Deleting a poll leaves no choice without its poll and no vote without its choice. |
| Integrity.DeletePollLeavesNothing | polls/models.py:23-28 | After deleting a poll, no choice of it and no vote on any choice it had before the deletion remain, and it has no row. |
| Integrity.DeletePollKeepsOthers | polls/models.py:23-28 | Every other poll keeps its choices and its vote total. |
| Integrity.DeleteChoiceCounts | polls/models.py:23-47 | Deleting a choice lowers its poll's total by exactly that choice's count. Every other choice keeps its count. |
| Integrity.DeleteUserValid | polls/models.py:13-47 | Deleting a user keeps the store valid. |
| Integrity.DeleteUserLeavesNothing | polls/models.py:13-47 | After deleting a user, none of their polls remains, no choice or vote on a poll they had created before the deletion, and none of their own votes. |
| Tallies.TotalVotesIsSetSize | polls/models.py:23-24 | A poll's total is the number of distinct votes on its choices, so it is 0 exactly when no vote is on the poll. |
| Tallies.VoteCountIsSetSize | polls/models.py:35-36 | A choice's count is the number of distinct votes referencing it, so it is 0 exactly when no vote does. |
| Tallies.VotePercentageIsShare | polls/models.py:38-42 | A choice's percentage times its poll's total is 100 times its count. It is 0 exactly when the choice has no vote. |
| Tallies.VoteCountsSumToTotal | polls/models.py:23-36 | The vote counts of a poll's choices add up to the poll's total. This holds because choice ids are unique. |
| Tallies.VoteCountAtMostTotal | polls/models.py:23-36 | A choice never has more votes than its poll. |
| Tallies.PercentageBounds | polls/models.py:38-42 | A percentage lies in [0, 100]. It is 0 while the poll has no votes. It is 100 exactly when the choice holds all of the poll's votes. |
| Tallies.PercentagesSumTo100 | polls/models.py:38-42 | Once the poll has a vote, its choices' percentages add up to exactly 100. |
| Tallies.PercentagesZeroWithoutVotes | polls/models.py:38-41 | Without votes, every choice shows 0 and the percentages add up to 0. |
| Forms.CleanEndDate | polls/forms.py:24-28 | An end date is refused, with the message 'End date must be in the future.', exactly when it is present and not after now. Any other value, including an empty one, passes unchanged. |
| Forms.DefaultEndDate | polls/forms.py:19-22 | The default end date is now plus seven days, to the minute: within the minute before that instant, and a whole minute. |
| Forms.DefaultEndDateAccepted | polls/forms.py:19-28 | The default end date passes `clean_end_date` if the form is submitted within a week, less the dropped seconds. |
| Forms.RequiredFormsFilled | polls/forms.py:46-53 | With `min_num` 2, the first two forms and every form of a stored choice must be filled in. Each that is not marked for deletion carries a text of 1 to 200 characters. |
| Forms.RenderedForms | polls/forms.py:46-53 | The number of forms rendered covers the stored choices and at least 2. It stays within 10 unless the stored choices exceed 10. It adds a blank form while fewer than 10 are stored. |
| Voting.FindPoll | polls/views.py:68 | The lookup by primary key finds a poll with that id exactly when one exists. |
| Voting.UserVote | polls/views.py:56 | The user's vote on the poll is found exactly when the user has a vote on one of the poll's choices. |
| Voting.SelectChoice | polls/views.py:80-84 | A choice is selected only if it was submitted and belongs to this poll. Otherwise none is selected. |
| Voting.CastVote | polls/views.py:66-94 | The guards, in order, are: not found, voting closed, already voted, invalid choice. Each refuses exactly in its case and changes nothing. A recorded vote appends exactly one row (user, selected choice, now) with the next id. |
| Voting.CastVoteValid | polls/views.py:86-88 | A recorded vote keeps the store valid. |
| Voting.CastVoteKeepsOneVote | polls/views.py:75-94 | Voting keeps at most one vote per (user, poll), though the table declares no uniqueness. |
| Voting.CastVoteCounts | polls/views.py:86-88 | A recorded vote adds one to the selected choice and to its poll's total, and nothing to any other. |
| Voting.SecondVoteRefused | polls/views.py:75-78 | After a recorded vote, any later vote by the same user on the poll while voting is open is refused as already voted, whatever the choice, and changes nothing. |
| Voting.CastVotesKeepOneVote | polls/views.py:66-94 | Any sequence of votes by existing users keeps the store valid and at most one vote per (user, poll). |
| Authoring.CreatePoll | polls/views.py:111-144 | An invalid form changes nothing. The choice forms are judged with no stored choices, so the first two are required. With fewer than two saved choices, the inserted poll is deleted again. Otherwise the poll and one choice per saved form are appended with the next ids, and nothing else changes. |
| Authoring.CreatePollRollsBack | polls/views.py:135-141 | When fewer than two choices are saved, no row of the call remains. |
| Authoring.CreateRefusesUntouchedRequired | polls/views.py:115-117 | Leaving one of the first two choice forms untouched gets the forms back with errors, and nothing is stored. |
| Authoring.CreateRefusesTooManyForms | polls/views.py:115-117 | A submission of more than 1010 choice forms is refused as too many, and nothing is stored. |
| Authoring.CreatedPollOpen | polls/models.py:19-21 | A created poll is open for voting from its creation until its end date, and closed after it. |
| Authoring.CreatedPollShape | polls/views.py:118-133 | A created poll is owned by the requester, starts now, is active and ends in the future. Its choices are exactly those of the saved forms, in order, at least two. |
| Authoring.FindOwnedPoll | polls/views.py:163 | The edit and delete lookups find a poll exactly when one with that id is owned by the requester. |
| Authoring.EditPoll | polls/views.py:161-197 | Not found, closed and invalid-form requests change nothing. The choice forms are judged with one initial form per stored choice, so those forms and the first two are required. A valid edit saves the poll form and runs the choice loop. Fewer than two saved choices are reported, yet the changes are kept. |
| Authoring.EditPollAtomic | polls/views.py:174-200 | Same outcome as the edit view. Any outcome but success leaves the store exactly as it was. |
| Authoring.DeleteOwnedPoll | polls/views.py:212-220 | Only the creator's poll is found. Deleting it cascades. Otherwise nothing changes. |
| Editing.ApplyEntriesBound | polls/views.py:179-189 | The edit loop leaves the poll with at least as many choices as forms it saved, plus the choices no form edited. |
| Editing.ApplyEntriesOthers | polls/views.py:179-189 | The edit loop leaves every choice that no form edits with its poll. |
| Editing.ApplyEntriesValid | polls/views.py:179-189 | Each step of the edit loop keeps the store valid and the polls as they are. |
| Editing.EditPollValid | polls/views.py:174-197 | The edit view keeps the store valid, both as written and corrected. |
| Editing.EditPollUpdatedChoices | polls/views.py:179-200 | A successful edit leaves the poll at least two choices and every other poll all of its own. |
| Editing.EditPollAtomicKeepsChoices | polls/views.py:174-200 | The corrected edit view keeps every poll at two choices or more. |
| Editing.EditPollLosesChoices | polls/views.py:191-197 | The edit view as written refuses an edit that deletes one of two choices, yet commits it. The poll is left with one choice and the deleted choice's vote is lost. The corrected view leaves the store unchanged. |
| Listing.ContainsAt | polls/views.py:25-27 | The containment used by the search holds exactly when the text occurs at some position. |
| Listing.ParseStatus | polls/views.py:32-37 | The three status names select their filters. Any other value selects none. |
| Listing.Index | polls/views.py:20-40 | The index holds exactly the polls the filter keeps, each as often as stored, newest first. |
| Listing.IndexMembers | polls/views.py:20-37 | A poll is listed exactly when it is active, matches the search (if one is given) and matches the status. |
| Listing.ActiveListingIsOpen | polls/views.py:32-33 | The 'active' listing holds exactly the matching polls open for voting. |
| Listing.UnknownStatusListsAll | polls/views.py:30-37 | An unknown status lists the same polls as no status. |
| Listing.SearchIgnoresCase | polls/views.py:23-28 | Searching for the text or its lower-case form lists the same polls. |
| Listing.StatusesPartition | polls/views.py:31-37 | For polls that do not end before they start, the three status listings split the unfiltered listing. |
| Listing.MyPolls | polls/views.py:155-158 | My polls are exactly the requester's polls, active or not, newest first. |
| Profile.UserPolls | accounts/views.py:63 | The requester's polls are exactly those they created. |
| Profile.VotingHistory | accounts/views.py:89-99 | The history holds exactly the requester's votes, newest first. Its count is its length. |
| Profile.StatsCountRows | accounts/views.py:67-72 | Each statistic is the number of distinct rows it counts. Running polls are the requester's polls that are active and end after now. |
| Profile.StatsMatchLists | accounts/views.py:63-70 | Polls created is the number of the requester's polls, and votes cast the length of their history. The running polls are among those created. |
| Profile.RunningVersusOpen | accounts/views.py:69 | A poll counts as running exactly when it is open and not at its last instant, or active and not yet started. |
| Profile.ReceivedIsSumOfTotals | accounts/views.py:71 | Votes received equal the sum of the totals of the requester's polls. |
| Profile.Stats | accounts/views.py:67-72 | The running polls are among those created. No count exceeds its table. Polls created is 0 exactly when the requester owns no poll. |
| Profile.RecentPolls | accounts/views.py:75 | The recent polls are the first five of the requester's polls ordered newest first, or all of them when there are fewer. None left out is newer than one shown. |
| Profile.RecentVotes | accounts/views.py:78 | The recent votes are the first five of the requester's votes ordered newest first, or all of them when there are fewer. None left out is newer than one shown. |
| Lifecycle.CreatePollValid | polls/views.py:118-141 | The create view keeps the store valid. |
| Lifecycle.CreatePollKeepsOneVote | polls/views.py:118-141 | The create view adds no vote and moves none to another poll. |
| Lifecycle.CreatePollKeepsChoices | polls/views.py:126-141 | After the create view every poll has at least two choices. |
| Lifecycle.ApplyEntriesVotes | polls/views.py:179-189 | The edit loop only removes votes and moves no remaining vote to another poll. |
| Lifecycle.EditPollKeepsOneVote | polls/views.py:174-197 | The edit view keeps at most one vote per (user, poll). |
| Lifecycle.DeleteOwnedPollKeepsInvariant | polls/views.py:212-220 | The delete view keeps all three invariants. |
| Lifecycle.StepKeepsInvariant | polls/views.py:66-220 | Every request of an existing user keeps validity, one vote per (user, poll) and two choices per poll, with the corrected edit view (`Authoring.EditPollAtomic`) in place of the view as written. |
| Lifecycle.RunKeepsInvariant | polls/views.py:66-220 | Any sequence of such requests keeps the invariants, with the corrected edit view in place of the view as written. |

## Left out

- HTTP plumbing is not modelled: request parsing, `render`/`redirect`, messages, `login_required` and the GET paths that only build blank forms. `get_object_or_404` becomes a "not found" outcome that changes nothing.
- The `IntegrityError` branch of the vote view (polls/views.py:90-92) is not modelled. It needs a concurrent writer, and the model is sequential with each view one atomic step.
- Transaction isolation is not modelled. Each view is one atomic function on the store.
- A non-numeric choice id in the vote request is not modelled. It raises an uncaught `ValueError` before the lookup; the model takes the choice as an optional id.
- `api_poll_results` and the `detail` and `results` pages are not modelled as views. They only project `IsVotingOpen`, `TotalVotes`, `VoteCount`, `VotePercentage` and `UserVote`, which are modelled.
- The registration, login and logout views, the URL table and the admin configuration are not modelled: they are framework configuration with no rules of their own.
- `vote_percentage` floating point is not modelled. Percentages are exact `real` quotients, without rounding.
- Unicode case folding is not modelled. `icontains` is modelled as containment after ASCII lower-casing.
- Date formatting is not modelled. The default end date's `strftime` to the minute is modelled as dropping the seconds of an integer time.
- Several reads of the clock are modelled as one `now` per request, although the views call `timezone.now()` several times.
- Ties in `order_by` are not modelled. The model fixes one order among rows with equal keys, while the database may return them in any order; the contracts say only "newest first".
- Authoring.CreatePoll: every submitted choice form is treated as a new choice, judged with no initial forms, as the create page renders them. The create view binds its formset without a queryset (polls/views.py:115), so Django resolves submitted choice ids against every stored choice. A POST that raises the initial-forms count and names another poll's choice id would re-point that choice, with its votes, to the new poll (polls/views.py:127-131), and if fewer than two choices are saved the `poll.delete()` at polls/views.py:137 deletes it with its votes. Such forged POST data is not modelled.
- Forms.RenderedForms: `max_num` itself only shapes the rendered forms. `validate_max` keeps Django's default `False`, so 10 is not checked on submission, and the model does not check it. Django still refuses a submission of more than `absolute_max` (1010) forms, which `Forms.ChoiceFormSetValid` models as `Forms.AbsoluteMax`. `min_num` acts on submission only by making the first two forms required (`Forms.EmptyPermitted`); `validate_min` is `False`, so the number of filled forms is not checked beyond that.
- Authoring.EditPoll: the number of initial forms is taken to be the poll's number of stored choices, as rendered. A POST whose initial-forms count differs, or a stored choice changed between rendering and submission, is not modelled.
- Authoring.EditPoll: the form set is valid only if every form that edits a stored choice edits a distinct one of this poll. Django's model formset gives this by building the forms from `poll.choices.all()`.
- Models.DeleteUser: user deletion is only the cascade the foreign keys declare. The accounts views that delete users are not modelled.

## Where the application and its intended behaviour differ

- A poll is meant to have 2 to 10 choices at all times. The application enforces only the lower bound, in the views' saved-choice count; nothing stops more than 10 choices. The model follows the code.
- Votes are meant to be unique per (user, poll) at the store level. The `Vote` model declares no such constraint, so one vote per (user, poll) rests on the already-voted check alone. The model proves it as an invariant of sequential requests.
- A refused create is meant to roll back. The application deletes the inserted poll, which cascades to its choices. The rows end as before, but the ids taken stay consumed; `Authoring.CreatePollRollsBack` states this.
- Duplicate choices are meant to be a validation error. The application does not check for duplicates, and neither does the model.
- "Not found" and "not the owner" are meant to be separate outcomes. The edit and delete views look the poll up together with its owner, so a non-owner gets "not found", as in the model.
- A refused edit is meant to roll back. The application commits it; see Findings.

## Findings

| source | as written | input that shows it | evidently intended | confidence | as-written member | corrected member |
|---|---|---|---|---|---|---|
| polls/views.py:191-197 | When fewer than two choices are saved, the edit view reports the error but returns normally inside `transaction.atomic()`. The poll-form save and every choice delete or save already done are committed. | Poll 1 has choices 1 and 2 and one vote on choice 2. Its owner submits at time 50 a new question, choice 1 kept and choice 2 marked for deletion (`SampleStore`, `SampleEntries`). Result: the question changes, choice 2 and its vote are gone, and the poll has one choice. | A refused edit leaves the store as it was, so every poll keeps at least two choices. | not executed | Editing.EditPollLosesChoices | Authoring.EditPollAtomic |

`Authoring.EditPoll` models the view as written. `Authoring.EditPollAtomic`
undoes a refused edit, and `Editing.EditPollAtomicKeepsChoices` proves it
keeps every poll at two choices or more. `Lifecycle.Step` uses the
corrected view.

=== FILE: authoring.dfy ===
/** Creating, editing and deleting polls, as the authoring views do it:
    the poll form and the choice forms are validated first; create then
    inserts the poll and the kept choices and deletes the poll again when
    fewer than two choices were saved; edit (owner only, open polls only)
    updates the poll and applies every choice form in order; delete (owner
    only) cascades. */
module Authoring {
  import opened Wrappers
  import opened Seqs
  import opened Models
  import opened Forms
  import opened Voting

  /** The views' minimum number of saved choices. */
  const RequiredChoices := 2

  datatype CreateOutcome = CreateFormInvalid | CreateTooFewChoices | Created(poll: Id)

  datatype EditOutcome = EditNotFound | EditClosed | EditFormInvalid | EditTooFewChoices | Updated

  datatype DeleteOutcome = DeleteNotFound | PollDeleted

  // ---------------------------------------------------------------------
  // create_poll

  /** A choice form is saved when it has cleaned data, is not marked for
      deletion and has a non-empty choice text. */
  predicate Saved(e: ChoiceEntry)
  {
    e.hasData && !Deleted(e) && |e.choiceText| > 0
  }

  /** The choices created from the saved forms `kept`, numbered from
      `next`. */
  function NewChoices(kept: seq<ChoiceEntry>, pid: Id, next: Id): (r: seq<Choice>)
    ensures |r| == |kept|
    ensures forall i :: 0 <= i < |r| ==> r[i] == Choice(next + i, pid, kept[i].choiceText, kept[i].description)
  {
    seq(|kept|, i requires 0 <= i < |kept| => Choice(next + i, pid, kept[i].choiceText, kept[i].description))
  }

  /** The poll row create_poll inserts: the form's fields, created and
      opened now, owned by the requester, active. */
  function NewPoll(st: Store, uid: Id, form: PollForm, now: Time): Poll
    requires form.endDate.Some?
  {
    Poll(st.nextPoll, form.question, form.description, now, now, form.endDate.value, uid, true)
  }

  /** The store once the poll and the choices of the saved forms are
      inserted, taking the next ids of both sequences. */
  function InsertPoll(st: Store, uid: Id, form: PollForm, es: seq<ChoiceEntry>, now: Time): (r: Store)
    requires form.endDate.Some?
  {
    var cs := NewChoices(Filter(es, Saved), st.nextPoll, st.nextChoice);
    st.(polls := st.polls + [NewPoll(st, uid, form, now)],
        choices := st.choices + cs,
        nextPoll := st.nextPoll + 1,
        nextChoice := st.nextChoice + |cs|)
  }

  /** The create view on a submitted form. */
  function CreatePoll(st: Store, uid: Id, form: PollForm, es: seq<ChoiceEntry>, now: Time): (res: (Store, CreateOutcome))
    ensures res.1 == CreateFormInvalid <==> !(PollFormValid(form, now) && ChoiceFormSetValid(es, 0))
    ensures res.1 == CreateFormInvalid ==> res.0 == st
    ensures res.1 == CreateTooFewChoices <==>
      PollFormValid(form, now) && ChoiceFormSetValid(es, 0) && Count(es, Saved) < RequiredChoices
    ensures res.1 == CreateTooFewChoices ==> res.0 == DeletePoll(InsertPoll(st, uid, form, es, now), st.nextPoll)
    ensures res.1.Created? ==>
      && res.1.poll == st.nextPoll
      && res.0.users == st.users && res.0.votes == st.votes
      && res.0.polls == st.polls + [NewPoll(st, uid, form, now)]
      && res.0.choices == st.choices + NewChoices(Filter(es, Saved), st.nextPoll, st.nextChoice)
      && Count(es, Saved) >= RequiredChoices
  {
    if !(PollFormValid(form, now) && ChoiceFormSetValid(es, 0)) then (st, CreateFormInvalid)
    else if Count(es, Saved) < RequiredChoices then
      (DeletePoll(InsertPoll(st, uid, form, es, now), st.nextPoll), CreateTooFewChoices)
    else (InsertPoll(st, uid, form, es, now), Created(st.nextPoll))
  }

  /** No stored choice belongs to the poll with the next id. */
  lemma OldChoicesNotOfNewPoll(st: Store)
    requires Valid(st)
    ensures forall c :: c in st.choices ==> c.poll != st.nextPoll
  {
    forall c | c in st.choices ensures c.poll != st.nextPoll {
      assert HasPoll(st, c.poll);
    }
  }

  /** Splitting a choice table into the rows of an older poll and the rows
      appended for poll `pid`. */
  lemma SplitAppendedChoices(prior: seq<Choice>, cs: seq<Choice>, pid: Id)
    requires forall c :: c in prior ==> c.poll != pid
    requires forall c :: c in cs ==> c.poll == pid
    ensures Filter(prior + cs, BelongsTo(pid)) == cs
    ensures Filter(prior + cs, ChoiceNotOf(pid)) == prior
  {
    FilterAppend(prior, cs, BelongsTo(pid));
    FilterAppend(prior, cs, ChoiceNotOf(pid));
    CountNone(prior, BelongsTo(pid));
    CountNone(cs, ChoiceNotOf(pid));
    FilterAll(prior, ChoiceNotOf(pid));
    FilterAll(cs, BelongsTo(pid));
  }

  /** Votes reference existing choices, so none is on a poll whose choices
      all carry fresh ids. */
  lemma NoVoteOnFreshChoices(st: Store, st': Store, pid: Id)
    requires Valid(st)
    requires st'.votes == st.votes
    requires forall c :: c in st'.choices && c.poll == pid ==> c.id >= st.nextChoice
    ensures Filter(st.votes, VoteNotOn(st', pid)) == st.votes
  {
    forall v | v in st.votes ensures VoteNotOn(st', pid)(v) {
      assert HasChoice(st, v.choice);
      var c :| c in st.choices && c.id == v.choice;
      assert v.choice < st.nextChoice;
    }
    FilterAll(st.votes, VoteNotOn(st', pid));
  }

  /** The new poll's choices are the inserted ones: those of the saved
      forms, numbered from the next choice id. */
  lemma InsertedChoices(st: Store, uid: Id, form: PollForm, es: seq<ChoiceEntry>, now: Time)
    requires Valid(st) && form.endDate.Some?
    ensures var cs := NewChoices(Filter(es, Saved), st.nextPoll, st.nextChoice);
      && InsertPoll(st, uid, form, es, now).choices == st.choices + cs
      && ChoicesOf(InsertPoll(st, uid, form, es, now), st.nextPoll) == cs
      && Filter(InsertPoll(st, uid, form, es, now).choices, ChoiceNotOf(st.nextPoll)) == st.choices
      && (forall c :: c in cs ==> c.poll == st.nextPoll && c.id >= st.nextChoice)
  {
    var cs := NewChoices(Filter(es, Saved), st.nextPoll, st.nextChoice);
    OldChoicesNotOfNewPoll(st);
    forall c | c in cs ensures c.poll == st.nextPoll && c.id >= st.nextChoice {
      var i :| 0 <= i < |cs| && cs[i] == c;
    }
    SplitAppendedChoices(st.choices, cs, st.nextPoll);
  }

  /** Deleting the poll just inserted cascades to the choices just
      inserted; no vote can reference them. */
  lemma DeleteInsertedPoll(st: Store, uid: Id, form: PollForm, es: seq<ChoiceEntry>, now: Time)
    requires Valid(st) && form.endDate.Some?
    ensures SameRows(st, DeletePoll(InsertPoll(st, uid, form, es, now), st.nextPoll))
  {
    var pid := st.nextPoll;
    var st' := InsertPoll(st, uid, form, es, now);
    FilterAppend(st.polls, [NewPoll(st, uid, form, now)], PollNotId(pid));
    FilterAll(st.polls, PollNotId(pid));
    InsertedChoices(st, uid, form, es, now);
    OldChoicesNotOfNewPoll(st);
    NoVoteOnFreshChoices(st, st', pid);
  }

  /** When fewer than two choices are saved the new poll is deleted again,
      and with it the choices just inserted, so no row of this call
      remains. */
  lemma CreatePollRollsBack(st: Store, uid: Id, form: PollForm, es: seq<ChoiceEntry>, now: Time)
    requires Valid(st)
    requires CreatePoll(st, uid, form, es, now).1 == CreateTooFewChoices
    ensures SameRows(st, CreatePoll(st, uid, form, es, now).0)
  {
    DeleteInsertedPoll(st, uid, form, es, now);
  }

  /** A created poll is owned by the requester, opens now, is active, ends
      in the future, and its choices are exactly those of the saved forms,
      at least two. */
  lemma CreatedPollShape(st: Store, uid: Id, form: PollForm, es: seq<ChoiceEntry>, now: Time)
    requires Valid(st)
    requires CreatePoll(st, uid, form, es, now).1.Created?
    ensures var (r, out) := CreatePoll(st, uid, form, es, now);
      exists p :: p in r.polls && p.id == out.poll && p.createdBy == uid && p.startDate == now
                  && p.isActive && p.endDate > now
    ensures var (r, out) := CreatePoll(st, uid, form, es, now);
      ChoicesOf(r, out.poll) == NewChoices(Filter(es, Saved), out.poll, st.nextChoice)
    ensures var (r, out) := CreatePoll(st, uid, form, es, now);
      |ChoicesOf(r, out.poll)| == Count(es, Saved) >= RequiredChoices
  {
    var r := InsertPoll(st, uid, form, es, now);
    assert CreatePoll(st, uid, form, es, now) == (r, Created(st.nextPoll));
    PollFormEndsInFuture(form, now);
    var p := NewPoll(st, uid, form, now);
    assert p in r.polls && p.id == st.nextPoll && p.endDate > now;
    InsertedChoices(st, uid, form, es, now);
  }

  /** The create form set is rendered with no stored choices, so its first
      `MinForms` forms are required: leaving one of them untouched gets the
      forms back with errors and stores nothing. */
  lemma CreateRefusesUntouchedRequired(st: Store, uid: Id, form: PollForm, es: seq<ChoiceEntry>, now: Time, i: nat)
    requires i < |es| && i < MinForms && !es[i].hasData
    ensures CreatePoll(st, uid, form, es, now) == (st, CreateFormInvalid)
  {
    assert !ChoiceFormValid(es, i, 0);
  }

  /** A submission of more choice forms than `AbsoluteMax` is refused as
      too many forms, and nothing is stored. */
  lemma CreateRefusesTooManyForms(st: Store, uid: Id, form: PollForm, es: seq<ChoiceEntry>, now: Time)
    requires |es| > AbsoluteMax
    ensures CreatePoll(st, uid, form, es, now) == (st, CreateFormInvalid)
  {
  }

  /** A created poll is open for voting from the moment it is created
      until its end date, and closed from then on. */
  lemma CreatedPollOpen(st: Store, uid: Id, form: PollForm, es: seq<ChoiceEntry>, now: Time)
    requires CreatePoll(st, uid, form, es, now).1.Created?
    ensures var (r, out) := CreatePoll(st, uid, form, es, now);
      exists p :: p in r.polls && p.id == out.poll && IsVotingOpen(p, now)
        && (forall t :: now <= t <= p.endDate ==> IsVotingOpen(p, t))
        && (forall t :: t > p.endDate ==> !IsVotingOpen(p, t))
  {
    var r := InsertPoll(st, uid, form, es, now);
    assert CreatePoll(st, uid, form, es, now) == (r, Created(st.nextPoll));
    PollFormEndsInFuture(form, now);
    var p := NewPoll(st, uid, form, now);
    assert p in r.polls && p.id == st.nextPoll && IsVotingOpen(p, now);
  }

  // ---------------------------------------------------------------------
  // edit_poll

  function OwnedPoll(uid: Id, pid: Id): Poll -> bool { (p: Poll) => p.id == pid && p.createdBy == uid }

  /** Looking a poll up by primary key among the requester's own polls. */
  function FindOwnedPoll(st: Store, uid: Id, pid: Id): (r: Option<Poll>)
    ensures r.Some? ==> r.value in st.polls && r.value.id == pid && r.value.createdBy == uid
    ensures r.None? <==> forall p :: p in st.polls && p.id == pid ==> p.createdBy != uid
  {
    Find(st.polls, OwnedPoll(uid, pid))
  }

  /** The stored choice a choice form edits, if any, as a set. */
  function EntryInstance(e: ChoiceEntry): set<Id>
  {
    if e.instance.Some? then {e.instance.value} else {}
  }

  /** The stored choices that the choice forms edit. */
  function Instances(es: seq<ChoiceEntry>): set<Id>
  {
    if |es| == 0 then {} else EntryInstance(es[0]) + Instances(es[1..])
  }

  /** No two choice forms edit the same stored choice. */
  predicate DistinctInstances(es: seq<ChoiceEntry>)
  {
    |es| == 0 ||
    ((es[0].instance.Some? ==> es[0].instance.value !in Instances(es[1..])) && DistinctInstances(es[1..]))
  }

  /** The ids of the poll's choices. */
  function ChoiceIds(st: Store, pid: Id): set<Id>
  {
    set c | c in st.choices && c.poll == pid :: c.id
  }

  /** The edit forms are valid: every choice form is, the set having been
      rendered with one form per stored choice of the poll, and each form
      edits a distinct stored choice of this poll. */
  predicate EditFormSetValid(st: Store, pid: Id, es: seq<ChoiceEntry>)
  {
    && ChoiceFormSetValid(es, |ChoiceIds(st, pid)|)
    && Instances(es) <= ChoiceIds(st, pid)
    && DistinctInstances(es)
  }

  /** Saving the poll form: the question, description and end date of the
      poll with id `pid` are replaced. */
  function UpdatePollFields(polls: seq<Poll>, pid: Id, form: PollForm): (r: seq<Poll>)
    requires form.endDate.Some?
    ensures |r| == |polls|
    ensures forall i :: 0 <= i < |r| ==>
      r[i] == (if polls[i].id == pid
               then polls[i].(question := form.question, description := form.description, endDate := form.endDate.value)
               else polls[i])
  {
    seq(|polls|, i requires 0 <= i < |polls| =>
      if polls[i].id == pid
      then polls[i].(question := form.question, description := form.description, endDate := form.endDate.value)
      else polls[i])
  }

  /** Saving an existing choice's form: its text and description are
      replaced and it is bound to the poll. */
  function UpdateChoice(cs: seq<Choice>, cid: Id, pid: Id, text: string, description: string): (r: seq<Choice>)
    ensures |r| == |cs|
    ensures forall i :: 0 <= i < |r| ==> r[i] == if cs[i].id == cid then Choice(cid, pid, text, description) else cs[i]
  {
    seq(|cs|, i requires 0 <= i < |cs| => if cs[i].id == cid then Choice(cid, pid, text, description) else cs[i])
  }

  /** Saving a choice form: update the choice it edits, or insert a new
      choice with the next id. */
  function SaveChoice(st: Store, pid: Id, e: ChoiceEntry): Store
  {
    match e.instance
    case Some(cid) => st.(choices := UpdateChoice(st.choices, cid, pid, e.choiceText, e.description))
    case None =>
      st.(choices := st.choices + [Choice(st.nextChoice, pid, e.choiceText, e.description)],
          nextChoice := st.nextChoice + 1)
  }

  /** One iteration of the edit loop: a deleted form deletes the stored
      choice it edits (cascading to its votes); a form with text is saved
      and counted; anything else is skipped. */
  function ApplyEntry(st: Store, pid: Id, e: ChoiceEntry): (Store, nat)
  {
    if !e.hasData then (st, 0)
    else if Deleted(e) then
      if e.instance.Some? then (DeleteChoice(st, e.instance.value), 0) else (st, 0)
    else if |e.choiceText| > 0 then (SaveChoice(st, pid, e), 1)
    else (st, 0)
  }

  /** The edit loop over all choice forms, in order: the resulting store
      and the number of saved choices. */
  function ApplyEntries(st: Store, pid: Id, es: seq<ChoiceEntry>): (Store, nat)
    decreases |es|
  {
    if |es| == 0 then (st, 0)
    else
      var (st1, k) := ApplyEntry(st, pid, es[0]);
      var (st2, n) := ApplyEntries(st1, pid, es[1..]);
      (st2, k + n)
  }

  /** The store after the poll form and all choice forms are saved, and
      the number of saved choices. */
  function ApplyEdit(st: Store, pid: Id, form: PollForm, es: seq<ChoiceEntry>): (Store, nat)
    requires form.endDate.Some?
  {
    ApplyEntries(st.(polls := UpdatePollFields(st.polls, pid, form)), pid, es)
  }

  /** The edit view on a submitted form, as written: when fewer than two
      choices are saved it reports the error but returns normally inside
      the transaction, so every change made so far is committed. */
  function EditPoll(st: Store, uid: Id, pid: Id, form: PollForm, es: seq<ChoiceEntry>, now: Time): (res: (Store, EditOutcome))
    ensures res.1 == EditNotFound <==> FindOwnedPoll(st, uid, pid).None?
    ensures res.1 == EditClosed <==>
      FindOwnedPoll(st, uid, pid).Some? && !IsVotingOpen(FindOwnedPoll(st, uid, pid).value, now)
    ensures res.1 == EditFormInvalid <==>
      FindOwnedPoll(st, uid, pid).Some? && IsVotingOpen(FindOwnedPoll(st, uid, pid).value, now)
      && !(PollFormValid(form, now) && EditFormSetValid(st, pid, es))
    ensures res.1 in {EditNotFound, EditClosed, EditFormInvalid} ==> res.0 == st
    ensures res.1 in {EditTooFewChoices, Updated} ==>
      && PollFormValid(form, now)
      && res.0 == ApplyEdit(st, pid, form, es).0
      && (res.1 == Updated <==> ApplyEdit(st, pid, form, es).1 >= RequiredChoices)
  {
    match FindOwnedPoll(st, uid, pid)
    case None => (st, EditNotFound)
    case Some(poll) =>
      if !IsVotingOpen(poll, now) then (st, EditClosed)
      else if !(PollFormValid(form, now) && EditFormSetValid(st, pid, es)) then (st, EditFormInvalid)
      else
        var (st', saved) := ApplyEdit(st, pid, form, es);
        if saved < RequiredChoices then (st', EditTooFewChoices) else (st', Updated)
  }

  /** The edit view with the atomic semantics the view intends
      (`transaction.atomic`): identical, except that fewer than two saved choices undo the whole
      edit. */
  function EditPollAtomic(st: Store, uid: Id, pid: Id, form: PollForm, es: seq<ChoiceEntry>, now: Time): (res: (Store, EditOutcome))
    ensures res.1 == EditPoll(st, uid, pid, form, es, now).1
    ensures res.1 != Updated ==> res.0 == st
    ensures res.1 == Updated ==> res.0 == EditPoll(st, uid, pid, form, es, now).0
  {
    var (st', out) := EditPoll(st, uid, pid, form, es, now);
    if out == Updated then (st', out) else (st, out)
  }

  // ---------------------------------------------------------------------
  // delete_poll

  /** The delete view on a confirmed request: only the poll's creator may
      delete it, whether or not voting is open. */
  function DeleteOwnedPoll(st: Store, uid: Id, pid: Id): (res: (Store, DeleteOutcome))
    ensures res.1 == DeleteNotFound <==> forall p :: p in st.polls && p.id == pid ==> p.createdBy != uid
    ensures res.1 == DeleteNotFound ==> res.0 == st
    ensures res.1 == PollDeleted ==> res.0 == DeletePoll(st, pid)
  {
    match FindOwnedPoll(st, uid, pid)
    case None => (st, DeleteNotFound)
    case Some(_) => (DeletePoll(st, pid), PollDeleted)
  }
}

=== FILE: editing.dfy ===
/** Properties of the edit view: what the edit loop does to a poll's set
    of choices, the store invariants it keeps, and the partial commit of
    the view as written when fewer than two choices are saved. */
module Editing {
  import opened Wrappers
  import opened Seqs
  import opened Models
  import opened Forms
  import opened Authoring
  import Integrity

  /** Choice ids are below the next value of their sequence. */
  predicate ChoiceIdsBelowNext(st: Store)
  {
    forall c :: c in st.choices ==> c.id < st.nextChoice
  }

  // ---------------------------------------------------------------------
  // One form at a time

  /** Deleting choice `x` removes only `x` from any poll's choice ids. */
  lemma DeleteChoiceIds(st: Store, x: Id, q: Id)
    ensures ChoiceIds(st, q) - {x} <= ChoiceIds(DeleteChoice(st, x), q)
  {
    forall y | y in ChoiceIds(st, q) - {x} ensures y in ChoiceIds(DeleteChoice(st, x), q) {
      var c :| c in st.choices && c.poll == q && c.id == y;
      assert c in DeleteChoice(st, x).choices;
    }
  }

  /** Saving a form: the edited poll keeps all its choice ids and gains a
      fresh one for a new choice; any other poll loses at most the edited
      choice. */
  lemma SaveChoiceIds(st: Store, pid: Id, e: ChoiceEntry, q: Id)
    ensures q == pid ==> ChoiceIds(st, q) <= ChoiceIds(SaveChoice(st, pid, e), q)
    ensures q == pid && e.instance.None? ==> st.nextChoice in ChoiceIds(SaveChoice(st, pid, e), q)
    ensures ChoiceIds(st, q) - EntryInstance(e) <= ChoiceIds(SaveChoice(st, pid, e), q)
  {
    var r := SaveChoice(st, pid, e);
    match e.instance
    case None =>
      assert r.choices[|st.choices|].id == st.nextChoice;
    case Some(x) =>
      forall y | y in ChoiceIds(st, q) && (q == pid || y != x) ensures y in ChoiceIds(r, q) {
        var c :| c in st.choices && c.poll == q && c.id == y;
        var i :| 0 <= i < |st.choices| && st.choices[i] == c;
        assert r.choices[i] in r.choices;
      }
  }

  /** The edit loop takes new choice ids from the sequence. */
  lemma ApplyEntryIdsBelowNext(st: Store, pid: Id, e: ChoiceEntry)
    requires ChoiceIdsBelowNext(st)
    ensures ChoiceIdsBelowNext(ApplyEntry(st, pid, e).0)
    ensures st.nextChoice <= ApplyEntry(st, pid, e).0.nextChoice
  {
    var st1 := ApplyEntry(st, pid, e).0;
    if e.hasData && !Deleted(e) && |e.choiceText| > 0 {
      forall c | c in st1.choices ensures c.id < st1.nextChoice {
        var i :| 0 <= i < |st1.choices| && st1.choices[i] == c;
        if i < |st.choices| {
          assert st.choices[i] in st.choices;
        }
      }
    }
  }

  /** A form that saves nothing keeps every choice of the poll except the
      one it deletes. */
  lemma UnsavedEntryBound(st: Store, pid: Id, e: ChoiceEntry, later: set<Id>)
    requires !(e.hasData && !Deleted(e) && |e.choiceText| > 0)
    requires EntryInstance(e) !! later
    ensures ApplyEntry(st, pid, e).1 == 0
    ensures ChoiceIds(st, pid) - (EntryInstance(e) + later) <= ChoiceIds(ApplyEntry(st, pid, e).0, pid) - later
    ensures later <= ChoiceIds(st, pid) ==> later <= ChoiceIds(ApplyEntry(st, pid, e).0, pid)
  {
    if e.hasData && Deleted(e) && e.instance.Some? {
      DeleteChoiceIds(st, e.instance.value, pid);
    }
  }

  /** A saved form keeps every choice of the poll and adds one id that
      neither the untouched choices nor the later forms account for. */
  lemma SavedEntryBound(st: Store, pid: Id, e: ChoiceEntry, later: set<Id>)
    requires e.hasData && !Deleted(e) && |e.choiceText| > 0
    requires ChoiceIdsBelowNext(st)
    requires later <= ChoiceIds(st, pid)
    requires EntryInstance(e) <= ChoiceIds(st, pid)
    requires EntryInstance(e) !! later
    ensures ApplyEntry(st, pid, e).1 == 1
    ensures later <= ChoiceIds(ApplyEntry(st, pid, e).0, pid)
    ensures |ChoiceIds(ApplyEntry(st, pid, e).0, pid) - later| >= 1 + |ChoiceIds(st, pid) - (EntryInstance(e) + later)|
  {
    var st1 := SaveChoice(st, pid, e);
    var before := ChoiceIds(st, pid) - (EntryInstance(e) + later);
    SaveChoiceIds(st, pid, e, pid);
    var added := if e.instance.Some? then e.instance.value else st.nextChoice;
    forall y | y in ChoiceIds(st, pid) ensures y < st.nextChoice {
      var c :| c in st.choices && c.poll == pid && c.id == y;
    }
    assert added !in before && added !in later;
    assert added in ChoiceIds(st1, pid);
    CardMono(before + {added}, ChoiceIds(st1, pid) - later);
  }

  /** One step of the edit loop, for the bound on the edited poll's choices:
      a saved form adds an id outside those the later forms (`later`) edit
      and outside the untouched ones. */
  lemma ApplyEntryBound(st: Store, pid: Id, e: ChoiceEntry, later: set<Id>)
    requires ChoiceIdsBelowNext(st)
    requires later <= ChoiceIds(st, pid)
    requires EntryInstance(e) <= ChoiceIds(st, pid)
    requires EntryInstance(e) !! later
    ensures ChoiceIdsBelowNext(ApplyEntry(st, pid, e).0)
    ensures later <= ChoiceIds(ApplyEntry(st, pid, e).0, pid)
    ensures |ChoiceIds(ApplyEntry(st, pid, e).0, pid) - later|
         >= ApplyEntry(st, pid, e).1 + |ChoiceIds(st, pid) - (EntryInstance(e) + later)|
  {
    ApplyEntryIdsBelowNext(st, pid, e);
    if e.hasData && !Deleted(e) && |e.choiceText| > 0 {
      SavedEntryBound(st, pid, e, later);
    } else {
      UnsavedEntryBound(st, pid, e, later);
      CardMono(ChoiceIds(st, pid) - (EntryInstance(e) + later), ChoiceIds(ApplyEntry(st, pid, e).0, pid) - later);
    }
  }

  // ---------------------------------------------------------------------
  // The whole edit loop

  /** The edit loop saves `n` forms, each adding a choice id to the poll
      that neither an untouched choice nor another form accounts for: the
      poll ends with at least `n` choices plus those no form edited. */
  lemma {:induction false} ApplyEntriesBound(st: Store, pid: Id, es: seq<ChoiceEntry>)
    requires ChoiceIdsBelowNext(st)
    requires Instances(es) <= ChoiceIds(st, pid)
    requires DistinctInstances(es)
    ensures |ChoiceIds(ApplyEntries(st, pid, es).0, pid)|
         >= ApplyEntries(st, pid, es).1 + |ChoiceIds(st, pid) - Instances(es)|
    decreases |es|
  {
    if |es| == 0 {
      assert ChoiceIds(st, pid) - Instances(es) == ChoiceIds(st, pid);
    } else {
      var rest := es[1..];
      var st1 := ApplyEntry(st, pid, es[0]).0;
      ApplyEntryBound(st, pid, es[0], Instances(rest));
      ApplyEntriesBound(st1, pid, rest);
    }
  }

  /** A form changes at most the choice it edits; any other choice stays
      with its poll. */
  lemma ApplyEntryOthers(st: Store, pid: Id, e: ChoiceEntry, q: Id)
    ensures ChoiceIds(st, q) - EntryInstance(e) <= ChoiceIds(ApplyEntry(st, pid, e).0, q)
  {
    if e.hasData && !Deleted(e) && |e.choiceText| > 0 {
      SaveChoiceIds(st, pid, e, q);
    } else if e.hasData && Deleted(e) && e.instance.Some? {
      DeleteChoiceIds(st, e.instance.value, q);
    }
  }

  /** The edit loop leaves every choice that no form edits where it was. */
  lemma {:induction false} ApplyEntriesOthers(st: Store, pid: Id, es: seq<ChoiceEntry>, q: Id)
    ensures ChoiceIds(st, q) - Instances(es) <= ChoiceIds(ApplyEntries(st, pid, es).0, q)
    decreases |es|
  {
    if |es| > 0 {
      ApplyEntryOthers(st, pid, es[0], q);
      ApplyEntriesOthers(ApplyEntry(st, pid, es[0]).0, pid, es[1..], q);
    }
  }

  // ---------------------------------------------------------------------
  // Validity

  /** Saving the poll form keeps every poll's id and creator, so the same
      poll ids exist afterwards. */
  lemma UpdatePollFieldsHasPoll(st: Store, pid: Id, form: PollForm)
    requires form.endDate.Some?
    ensures forall q :: HasPoll(st, q) <==> HasPoll(st.(polls := UpdatePollFields(st.polls, pid, form)), q)
  {
    var r := st.(polls := UpdatePollFields(st.polls, pid, form));
    forall q ensures HasPoll(st, q) <==> HasPoll(r, q) {
      if HasPoll(st, q) {
        var p :| p in st.polls && p.id == q;
        var i :| 0 <= i < |st.polls| && st.polls[i] == p;
        assert r.polls[i] in r.polls && r.polls[i].id == q;
      }
      if HasPoll(r, q) {
        var p :| p in r.polls && p.id == q;
        var i :| 0 <= i < |r.polls| && r.polls[i] == p;
        assert st.polls[i] in st.polls && st.polls[i].id == q;
      }
    }
  }

  /** Saving the poll form keeps the store valid. */
  lemma UpdatePollFieldsValid(st: Store, pid: Id, form: PollForm)
    requires Valid(st) && form.endDate.Some?
    ensures Valid(st.(polls := UpdatePollFields(st.polls, pid, form)))
    ensures forall q :: HasPoll(st, q) <==> HasPoll(st.(polls := UpdatePollFields(st.polls, pid, form)), q)
  {
    var r := st.(polls := UpdatePollFields(st.polls, pid, form));
    UpdatePollFieldsHasPoll(st, pid, form);
    assert forall i :: 0 <= i < |r.polls| ==> r.polls[i].id == st.polls[i].id && r.polls[i].createdBy == st.polls[i].createdBy;
    assert Distinct(r.polls, PollKey);
    forall p | p in r.polls ensures HasUser(r, p.createdBy) && p.id < r.nextPoll {
      var i :| 0 <= i < |r.polls| && r.polls[i] == p;
      assert st.polls[i] in st.polls;
    }
  }

  /** Saving an existing choice keeps its id and binds it to an existing
      poll, so the store stays valid. */
  lemma UpdateChoiceValid(st: Store, pid: Id, e: ChoiceEntry)
    requires Valid(st) && HasPoll(st, pid) && e.instance.Some?
    ensures Valid(SaveChoice(st, pid, e))
  {
    var r := SaveChoice(st, pid, e);
    assert forall i :: 0 <= i < |r.choices| ==> r.choices[i].id == st.choices[i].id;
    forall c | c in r.choices ensures HasPoll(r, c.poll) && c.id < r.nextChoice {
      var i :| 0 <= i < |r.choices| && r.choices[i] == c;
      assert st.choices[i] in st.choices;
    }
    forall v | v in r.votes ensures HasChoice(r, v.choice) {
      assert HasChoice(st, v.choice);
      var c :| c in st.choices && c.id == v.choice;
      var i :| 0 <= i < |st.choices| && st.choices[i] == c;
      assert r.choices[i] in r.choices;
    }
  }

  /** Saving a new choice appends a row with a fresh id bound to an
      existing poll, so the store stays valid. */
  lemma InsertChoiceValid(st: Store, pid: Id, e: ChoiceEntry)
    requires Valid(st) && HasPoll(st, pid) && e.instance.None?
    ensures Valid(SaveChoice(st, pid, e))
  {
    var r := SaveChoice(st, pid, e);
    var c := Choice(st.nextChoice, pid, e.choiceText, e.description);
    AppendDistinct(st.choices, c, ChoiceKey);
    assert forall d :: d in r.choices ==> d in st.choices || d == c;
    forall v | v in r.votes ensures HasChoice(r, v.choice) {
      assert HasChoice(st, v.choice);
      var d :| d in st.choices && d.id == v.choice;
      assert d in r.choices;
    }
  }

  /** Every step of the edit loop keeps the store valid and the polls as
      they are. */
  lemma ApplyEntryValid(st: Store, pid: Id, e: ChoiceEntry)
    requires Valid(st) && HasPoll(st, pid)
    ensures Valid(ApplyEntry(st, pid, e).0)
    ensures ApplyEntry(st, pid, e).0.polls == st.polls
  {
    if e.hasData && !Deleted(e) && |e.choiceText| > 0 {
      if e.instance.Some? {
        UpdateChoiceValid(st, pid, e);
      } else {
        InsertChoiceValid(st, pid, e);
      }
    } else if e.hasData && Deleted(e) && e.instance.Some? {
      Integrity.DeleteChoiceValid(st, e.instance.value);
    }
  }

  lemma {:induction false} ApplyEntriesValid(st: Store, pid: Id, es: seq<ChoiceEntry>)
    requires Valid(st) && HasPoll(st, pid)
    ensures Valid(ApplyEntries(st, pid, es).0)
    ensures ApplyEntries(st, pid, es).0.polls == st.polls
    decreases |es|
  {
    if |es| > 0 {
      ApplyEntryValid(st, pid, es[0]);
      ApplyEntriesValid(ApplyEntry(st, pid, es[0]).0, pid, es[1..]);
    }
  }

  /** The edit view keeps the store valid, as written and corrected. */
  lemma EditPollValid(st: Store, uid: Id, pid: Id, form: PollForm, es: seq<ChoiceEntry>, now: Time)
    requires Valid(st)
    ensures Valid(EditPoll(st, uid, pid, form, es, now).0)
    ensures Valid(EditPollAtomic(st, uid, pid, form, es, now).0)
  {
    var out := EditPoll(st, uid, pid, form, es, now).1;
    if out == Updated || out == EditTooFewChoices {
      var st0 := st.(polls := UpdatePollFields(st.polls, pid, form));
      UpdatePollFieldsValid(st, pid, form);
      ApplyEntriesValid(st0, pid, es);
    }
  }

  // ---------------------------------------------------------------------
  // At least two choices per poll

  /** Every poll has at least two choices, as the authoring views promise. */
  ghost predicate PollsHaveChoices(st: Store)
  {
    forall p :: p in st.polls ==> |ChoiceIds(st, p.id)| >= RequiredChoices
  }

  /** A successful edit leaves the poll with at least two choices and every
      other poll with all of its own. */
  lemma EditPollUpdatedChoices(st: Store, uid: Id, pid: Id, form: PollForm, es: seq<ChoiceEntry>, now: Time)
    requires Valid(st)
    requires EditPoll(st, uid, pid, form, es, now).1 == Updated
    ensures |ChoiceIds(EditPoll(st, uid, pid, form, es, now).0, pid)| >= RequiredChoices
    ensures forall q :: q != pid ==> ChoiceIds(st, q) <= ChoiceIds(EditPoll(st, uid, pid, form, es, now).0, q)
  {
    var st0 := st.(polls := UpdatePollFields(st.polls, pid, form));
    assert ChoiceIds(st0, pid) == ChoiceIds(st, pid);
    ApplyEntriesBound(st0, pid, es);
    forall q | q != pid ensures ChoiceIds(st, q) <= ChoiceIds(EditPoll(st, uid, pid, form, es, now).0, q) {
      assert ChoiceIds(st0, q) == ChoiceIds(st, q);
      ApplyEntriesOthers(st0, pid, es, q);
      forall x | x in ChoiceIds(st, q) ensures x !in Instances(es) {
        if x in ChoiceIds(st, pid) {
          var c :| c in st.choices && c.poll == q && c.id == x;
          var d :| d in st.choices && d.poll == pid && d.id == x;
          DistinctMembers(st.choices, ChoiceKey, c, d);
        }
      }
    }
  }

  /** The corrected edit view keeps every poll at two choices or more. */
  lemma EditPollAtomicKeepsChoices(st: Store, uid: Id, pid: Id, form: PollForm, es: seq<ChoiceEntry>, now: Time)
    requires Valid(st) && PollsHaveChoices(st)
    ensures PollsHaveChoices(EditPollAtomic(st, uid, pid, form, es, now).0)
  {
    var (r, out) := EditPollAtomic(st, uid, pid, form, es, now);
    if out == Updated {
      var st0 := st.(polls := UpdatePollFields(st.polls, pid, form));
      EditPollUpdatedChoices(st, uid, pid, form, es, now);
      UpdatePollFieldsValid(st, pid, form);
      ApplyEntriesValid(st0, pid, es);
      forall p | p in r.polls ensures |ChoiceIds(r, p.id)| >= RequiredChoices {
        if p.id != pid {
          assert HasPoll(st0, p.id);
          var p0 :| p0 in st.polls && p0.id == p.id;
          CardMono(ChoiceIds(st, p.id), ChoiceIds(r, p.id));
        }
      }
    }
  }

  // A poll with two choices, one vote on the second, and an edit by its
  // owner that keeps the first choice and deletes the second.

  const SampleStore := Store([User(1, "alice")], [Poll(1, "Q", "", 0, 0, 100, 1, true)],
                             [Choice(1, 1, "A", ""), Choice(2, 1, "B", "")], [Vote(1, 1, 2, 10)], 2, 3, 2)
  const SampleForm := PollForm("Q2", "", Some(100))
  const SampleEntries := [ChoiceEntry(Some(1), true, "A", "", false), ChoiceEntry(Some(2), true, "B", "", true)]

  /** What the view as written commits: the new question, one choice, and
      no vote. */
  const SampleCommitted := Store([User(1, "alice")], [Poll(1, "Q2", "", 0, 0, 100, 1, true)],
                                 [Choice(1, 1, "A", "")], [], 2, 3, 2)

  lemma SampleStoreValid()
    ensures Valid(SampleStore) && PollsHaveChoices(SampleStore)
  {
    SampleStoreNoOrphans();
    assert ChoiceIds(SampleStore, 1) == {1, 2};
  }

  lemma SampleStoreNoOrphans()
    ensures NoOrphans(SampleStore)
  {
    assert SampleStore.users[0] in SampleStore.users;
    assert SampleStore.polls[0] in SampleStore.polls;
    assert SampleStore.choices[1] in SampleStore.choices;
  }

  lemma SampleEditAccepted()
    ensures FindOwnedPoll(SampleStore, 1, 1) == Some(SampleStore.polls[0])
    ensures IsVotingOpen(SampleStore.polls[0], 50)
    ensures PollFormValid(SampleForm, 50)
    ensures EditFormSetValid(SampleStore, 1, SampleEntries)
  {
    assert SampleStore.polls[0] in SampleStore.polls;
    assert Instances(SampleEntries) == {1, 2};
    assert ChoiceIds(SampleStore, 1) == {1, 2};
    assert |ChoiceIds(SampleStore, 1)| == 2;
    assert ChoiceFormValid(SampleEntries, 0, 2) && ChoiceFormValid(SampleEntries, 1, 2);
  }

  lemma SampleEditSteps()
    ensures ApplyEdit(SampleStore, 1, SampleForm, SampleEntries) == (SampleCommitted, 1)
  {
    var st0 := SampleStore.(polls := UpdatePollFields(SampleStore.polls, 1, SampleForm));
    assert st0 == SampleCommitted.(choices := SampleStore.choices, votes := SampleStore.votes);
    var r := UpdateChoice(st0.choices, 1, 1, "A", "");
    assert r[0] == st0.choices[0] && r[1] == st0.choices[1];
    assert r == st0.choices;
    assert ApplyEntry(st0, 1, SampleEntries[0]) == (st0, 1);
    assert ApplyEntry(st0, 1, SampleEntries[1]).0 == SampleCommitted;
    assert SampleEntries[1..][1..] == [];
  }

  lemma SampleEditCommits()
    ensures EditPoll(SampleStore, 1, 1, SampleForm, SampleEntries, 50) == (SampleCommitted, EditTooFewChoices)
  {
    SampleEditAccepted();
    SampleEditSteps();
  }

  lemma SampleCommittedLosesChoice()
    ensures !PollsHaveChoices(SampleCommitted)
  {
    assert ChoiceIds(SampleCommitted, 1) == {1};
    assert SampleCommitted.polls[0] in SampleCommitted.polls;
  }

  /** The edit view as written refuses the edit, yet commits it: the poll
      keeps one choice, the vote on the deleted choice is gone and the
      question has changed. The corrected view leaves the store as it
      was. */
  lemma EditPollLosesChoices()
    ensures EditPoll(SampleStore, 1, 1, SampleForm, SampleEntries, 50) == (SampleCommitted, EditTooFewChoices)
    ensures Valid(SampleStore) && PollsHaveChoices(SampleStore)
    ensures !PollsHaveChoices(SampleCommitted)
    ensures EditPollAtomic(SampleStore, 1, 1, SampleForm, SampleEntries, 50) == (SampleStore, EditTooFewChoices)
  {
    SampleStoreValid();
    SampleEditCommits();
    SampleCommittedLosesChoice();
  }
}

=== FILE: forms.dfy ===
/** Input validation for authoring polls: the poll form (question,
    description, end date), one form per choice, and the configuration of
    the set of choice forms. Field values are the cleaned values, so text
    has already had surrounding whitespace stripped. */
module Forms {
  import opened Wrappers
  import opened Models

  /** `max_length` of `Poll.question` and of `Choice.choice_text`. */
  const QuestionMaxLength := 200
  const ChoiceTextMaxLength := 200

  /** A new poll's end date is offered one week ahead. */
  const DefaultVotingPeriod: Time := 7 * 24 * 60 * 60

  const EndDateNotInFuture := "End date must be in the future."

  /** The submitted poll form; `endDate` is `None` when the field is empty. */
  datatype PollForm = PollForm(question: string, description: string, endDate: Option<Time>)

  /** The initial end date shown for a new poll: one week after `now`,
      rendered to the minute (the seconds are dropped). */
  function DefaultEndDate(now: Time): (d: Time)
    ensures now + DefaultVotingPeriod - 60 < d <= now + DefaultVotingPeriod
    ensures d % 60 == 0
  {
    ((now + DefaultVotingPeriod) / 60) * 60
  }

  /** `clean_end_date`: an end date at or before `now` is refused; any other
      value, including an empty one, passes through unchanged. */
  function CleanEndDate(endDate: Option<Time>, now: Time): (r: Result<Option<Time>, string>)
    ensures r.Err? <==> endDate.Some? && endDate.value <= now
    ensures r.Err? ==> r.error == EndDateNotInFuture
    ensures r.Ok? ==> r.value == endDate
  {
    if endDate.Some? && endDate.value <= now then Err(EndDateNotInFuture) else Ok(endDate)
  }

  /** The poll form is valid: a non-empty question within its maximum
      length, and a present end date that `clean_end_date` accepts. The
      description may be blank. */
  predicate PollFormValid(f: PollForm, now: Time)
  {
    && 0 < |f.question| <= QuestionMaxLength
    && f.endDate.Some?
    && CleanEndDate(f.endDate, now).Ok?
  }

  // ---------------------------------------------------------------------
  // Choice forms

  /** Configuration of the set of choice forms. `MaxForms` itself is not
      validated on submission (Django's `validate_max` keeps its default
      `false`), but a submission of more than `AbsoluteMax` forms is refused
      as too many. The minimum is enforced only through the forms it makes
      required (see `EmptyPermitted`), since `validate_min` is `false` too. */
  const ExtraForms := 2
  const MinForms := 2
  const MaxForms := 10
  const CanDelete := true

  /** Django's `absolute_max` for the set: `max_num` plus its default
      ceiling of 1000 forms. */
  const AbsoluteMax := MaxForms + 1000

  /** One submitted choice form. `instance` is the stored choice the form
      edits (none for a new choice); `hasData` is false for a blank form
      that was left untouched, whose cleaned data is then empty. */
  datatype ChoiceEntry = ChoiceEntry(
    instance: Option<Id>,
    hasData: bool,
    choiceText: string,
    description: string,
    delete: bool)

  /** The form is marked for deletion (possible only since deletion is
      enabled). */
  predicate Deleted(e: ChoiceEntry) { CanDelete && e.delete }

  /** Django lets the form at position `i` stay untouched (`empty_permitted`)
      only when it lies beyond the `initial` forms of stored choices and
      beyond the first `MinForms` forms; a form that edits a stored choice
      always carries that choice's data. */
  predicate EmptyPermitted(es: seq<ChoiceEntry>, i: nat, initial: nat)
    requires i < |es|
  {
    i >= initial && i >= MinForms && es[i].instance.None?
  }

  /** The form at position `i` is valid when it is untouched where that is
      permitted, marked for deletion (its errors are then ignored), or
      carries a non-empty choice text within its maximum length. An
      untouched form where emptiness is not permitted is validated like any
      other and fails on the required choice text. */
  predicate ChoiceFormValid(es: seq<ChoiceEntry>, i: nat, initial: nat)
    requires i < |es|
  {
    if es[i].hasData then Deleted(es[i]) || 0 < |es[i].choiceText| <= ChoiceTextMaxLength
    else EmptyPermitted(es, i, initial)
  }

  /** The set is valid: it has no more than `AbsoluteMax` forms, and every
      form is valid, `initial` being the number of forms of stored choices
      the set was rendered with. */
  predicate ChoiceFormSetValid(es: seq<ChoiceEntry>, initial: nat)
  {
    && |es| <= AbsoluteMax
    && forall i :: 0 <= i < |es| ==> ChoiceFormValid(es, i, initial)
  }

  /** Number of choice forms rendered for a poll with `initial` stored
      choices: the stored ones (at least `MinForms`) plus `ExtraForms`
      blank ones, capped at `MaxForms` unless the stored choices alone
      exceed it. */
  function RenderedForms(initial: nat): (n: nat)
    ensures n >= initial && n >= MinForms
    ensures initial <= MaxForms ==> n <= MaxForms
    ensures initial < MaxForms ==> n > initial
    ensures n <= initial + MinForms + ExtraForms
  {
    var total := (if initial > MinForms then initial else MinForms) + ExtraForms;
    if initial > MaxForms then initial
    else if total > MaxForms then MaxForms
    else total
  }

  // ---------------------------------------------------------------------
  // Properties

  /** The offered default end date passes `clean_end_date` if the form is
      submitted less than a week (minus the dropped seconds) after it was
      rendered. */
  lemma DefaultEndDateAccepted(rendered: Time, submitted: Time)
    requires submitted <= rendered + DefaultVotingPeriod - 60
    ensures CleanEndDate(Some(DefaultEndDate(rendered)), submitted) == Ok(Some(DefaultEndDate(rendered)))
  {
  }

  /** A valid poll form ends strictly in the future. */
  lemma PollFormEndsInFuture(f: PollForm, now: Time)
    requires PollFormValid(f, now)
    ensures f.endDate.Some? && f.endDate.value > now
  {
  }

  /** `min_num = 2` as the formset applies it: in a valid set the first
      `MinForms` forms and the forms of stored choices were all filled in,
      and each of them that is kept carries a choice text. */
  lemma RequiredFormsFilled(es: seq<ChoiceEntry>, initial: nat)
    requires ChoiceFormSetValid(es, initial)
    ensures forall i :: 0 <= i < |es| && (i < MinForms || i < initial || es[i].instance.Some?) ==>
      es[i].hasData && (Deleted(es[i]) || 0 < |es[i].choiceText| <= ChoiceTextMaxLength)
  {
    forall i | 0 <= i < |es| && (i < MinForms || i < initial || es[i].instance.Some?)
      ensures es[i].hasData && (Deleted(es[i]) || 0 < |es[i].choiceText| <= ChoiceTextMaxLength)
    {
      assert ChoiceFormValid(es, i, initial);
    }
  }
}

=== FILE: integrity.dfy ===
/** The cascading deletes keep the store free of orphans, remove every row
    that depends on the deleted one, and leave every other poll's choices
    and totals as they were. */
module Integrity {
  import opened Seqs
  import opened Models

  /** Deleting a choice keeps the store valid. */
  lemma DeleteChoiceValid(st: Store, cid: Id)
    requires Valid(st)
    ensures Valid(DeleteChoice(st, cid))
  {
    var r := DeleteChoice(st, cid);
    FilterDistinct(st.choices, ChoiceNotId(cid), ChoiceKey);
    FilterDistinct(st.votes, VoteNotFor(cid), VoteKey);
    assert forall c :: c in r.choices ==> HasPoll(r, c.poll);
    forall v | v in r.votes ensures HasUser(r, v.user) && HasChoice(r, v.choice) {
      var c :| c in st.choices && c.id == v.choice;
      assert c in r.choices;
    }
    assert NoOrphans(r);
  }

  /** Deleting a poll keeps the store valid: no choice is left without its
      poll and no vote without its choice. */
  lemma DeletePollValid(st: Store, pid: Id)
    requires Valid(st)
    ensures Valid(DeletePoll(st, pid))
  {
    var r := DeletePoll(st, pid);
    FilterDistinct(st.polls, PollNotId(pid), PollKey);
    FilterDistinct(st.choices, ChoiceNotOf(pid), ChoiceKey);
    FilterDistinct(st.votes, VoteNotOn(st, pid), VoteKey);
    forall c | c in r.choices ensures HasPoll(r, c.poll) {
      var p :| p in st.polls && p.id == c.poll;
      assert p in r.polls;
    }
    forall v | v in r.votes ensures HasChoice(r, v.choice) {
      var c :| c in st.choices && c.id == v.choice;
      assert c in r.choices;
    }
  }

  /** After deleting a poll nothing of it remains: no choice of it, and no
      vote on any choice it had before the deletion. */
  lemma DeletePollLeavesNothing(st: Store, pid: Id)
    ensures forall c :: c in DeletePoll(st, pid).choices ==> c.poll != pid
    ensures forall v :: v in DeletePoll(st, pid).votes ==> !VoteOnPoll(st, v, pid)
    ensures ChoicesOf(DeletePoll(st, pid), pid) == []
    ensures TotalVotes(DeletePoll(st, pid), pid) == 0
    ensures forall p :: p in DeletePoll(st, pid).polls ==> p.id != pid
  {
    var r := DeletePoll(st, pid);
    CountNone(r.choices, BelongsTo(pid));
    CountNone(r.votes, OnPoll(r, pid));
  }

  /** Deleting one poll leaves every other poll's choices and vote total
      unchanged. */
  lemma DeletePollKeepsOthers(st: Store, pid: Id, q: Id)
    requires Valid(st)
    requires q != pid
    ensures ChoicesOf(DeletePoll(st, pid), q) == ChoicesOf(st, q)
    ensures TotalVotes(DeletePoll(st, pid), q) == TotalVotes(st, q)
  {
    var r := DeletePoll(st, pid);
    FilterOfFilter(st.choices, ChoiceNotOf(pid), BelongsTo(q));
    forall v | v in r.votes ensures OnPoll(r, q)(v) <==> OnPoll(st, q)(v) {
      if VoteOnPoll(st, v, q) {
        var c :| c in st.choices && c.id == v.choice && c.poll == q;
        assert c in r.choices;
      }
    }
    CountExt(r.votes, OnPoll(r, q), OnPoll(st, q));
    forall v | v in st.votes && OnPoll(st, q)(v) ensures VoteNotOn(st, pid)(v) {
      var c :| c in st.choices && c.id == v.choice && c.poll == q;
      if VoteOnPoll(st, v, pid) {
        var c' :| c' in st.choices && c'.id == v.choice && c'.poll == pid;
        DistinctMembers(st.choices, ChoiceKey, c, c');
      }
    }
    CountOfFilter(st.votes, VoteNotOn(st, pid), OnPoll(st, q));
  }

  /** Deleting a choice removes exactly that choice's votes from its poll's
      total and leaves every other choice's count unchanged. */
  lemma DeleteChoiceCounts(st: Store, c: Choice, d: Choice)
    requires Valid(st)
    requires c in st.choices && d in st.choices && d != c
    ensures VoteCount(DeleteChoice(st, c.id), d) == VoteCount(st, d)
    ensures TotalVotes(DeleteChoice(st, c.id), c.poll) + VoteCount(st, c) == TotalVotes(st, c.poll)
  {
    var r := DeleteChoice(st, c.id);
    assert d.id != c.id by {
      if d.id == c.id { DistinctMembers(st.choices, ChoiceKey, c, d); }
    }
    CountOfFilter(st.votes, VoteNotFor(c.id), VotesFor(d));
    // The poll's votes split into the deleted choice's and the rest.
    var onP := OnPoll(st, c.poll);
    forall v | v in st.votes && OnPoll(st, c.poll)(v) && VoteNotFor(c.id)(v)
      ensures OnPoll(r, c.poll)(v)
    {
      var e :| e in st.choices && e.id == v.choice && e.poll == c.poll;
      assert e in r.choices;
    }
    forall v | v in r.votes ensures OnPoll(r, c.poll)(v) <==> (onP(v) && VoteNotFor(c.id)(v)) {
      if VoteOnPoll(r, v, c.poll) {
        var e :| e in r.choices && e.id == v.choice && e.poll == c.poll;
      }
    }
    var rest := (v: Vote) => onP(v) && VoteNotFor(c.id)(v);
    CountExt(r.votes, OnPoll(r, c.poll), rest);
    CountOfFilter(st.votes, VoteNotFor(c.id), rest);
    CountSplit(st.votes, onP, VotesFor(c), rest);
  }

  /** Deleting a user keeps the store valid. */
  lemma DeleteUserValid(st: Store, uid: Id)
    requires Valid(st)
    ensures Valid(DeleteUser(st, uid))
  {
    var r := DeleteUser(st, uid);
    FilterDistinct(st.users, UserNotId(uid), UserKey);
    FilterDistinct(st.polls, NotCreatedBy(uid), PollKey);
    FilterDistinct(st.choices, ChoiceNotOwnedBy(st, uid), ChoiceKey);
    FilterDistinct(st.votes, VoteSurvivesUser(st, uid), VoteKey);
    forall p | p in r.polls ensures HasUser(r, p.createdBy) {
      var u :| u in st.users && u.id == p.createdBy;
      assert u in r.users;
    }
    forall c | c in r.choices ensures HasPoll(r, c.poll) {
      var p :| p in st.polls && p.id == c.poll;
      assert p in r.polls;
    }
    forall v | v in r.votes ensures HasUser(r, v.user) && HasChoice(r, v.choice) {
      var u :| u in st.users && u.id == v.user;
      assert u in r.users;
      var c :| c in st.choices && c.id == v.choice;
      assert c in r.choices;
    }
  }

  /** After deleting a user nothing of theirs remains: no poll they
      created, no choice or vote on a poll they had created before the
      deletion, no vote they cast. */
  lemma DeleteUserLeavesNothing(st: Store, uid: Id)
    ensures forall p :: p in DeleteUser(st, uid).polls ==> p.createdBy != uid
    ensures forall c :: c in DeleteUser(st, uid).choices ==> !ChoiceOwnedBy(st, c, uid)
    ensures forall v :: v in DeleteUser(st, uid).votes ==> v.user != uid && !VoteOnPollOf(st, v, uid)
    ensures forall c :: c in DeleteUser(st, uid).choices ==> !ChoiceOwnedBy(DeleteUser(st, uid), c, uid)
    ensures forall v :: v in DeleteUser(st, uid).votes ==> v.user != uid && !VoteOnPollOf(DeleteUser(st, uid), v, uid)
  {
  }
}

=== FILE: lifecycle.dfy ===
/** The store invariants every view keeps: keys are unique and nothing is
    orphaned, no user has two votes on one poll, and every poll has at
    least two choices. Edits use the corrected view, which undoes a refused
    edit; the view as written breaks the last invariant (see
    `Editing.EditPollLosesChoices`). */
module Lifecycle {
  import opened Wrappers
  import opened Seqs
  import opened Models
  import opened Forms
  import opened Voting
  import opened Authoring
  import opened Editing
  import Integrity

  ghost predicate Invariant(st: Store)
  {
    Valid(st) && OneVotePerPoll(st) && PollsHaveChoices(st)
  }

  // ---------------------------------------------------------------------
  // Shared arguments

  /** `r` holds only votes of `st`, each on a poll it was already on. */
  ghost predicate VotesNarrowed(st: Store, r: Store)
  {
    && multiset(r.votes) <= multiset(st.votes)
    && forall v, p :: v in r.votes && VoteOnPoll(r, v, p) ==> VoteOnPoll(st, v, p)
  }

  /** A store whose votes are among `st`'s, each on a poll it was already
      on in `st`, keeps at most one vote per (user, poll). */
  lemma OneVoteMonotone(st: Store, r: Store)
    requires OneVotePerPoll(st) && VotesNarrowed(st, r)
    ensures OneVotePerPoll(r)
  {
    forall u, p ensures Count(r.votes, UserPollVotes(r, u, p)) <= 1 {
      CountMono(r.votes, UserPollVotes(st, u, p), UserPollVotes(r, u, p));
      CountSubMultiset(r.votes, st.votes, UserPollVotes(st, u, p));
    }
  }

  /** The same rows with sequences no further back keep the store valid. */
  lemma SameRowsValid(st: Store, r: Store)
    requires Valid(st) && SameRows(st, r)
    requires st.nextPoll <= r.nextPoll && st.nextChoice <= r.nextChoice && st.nextVote <= r.nextVote
    ensures Valid(r)
  {
  }

  // ---------------------------------------------------------------------
  // create_poll

  /** The poll and choices inserted by create keep the store valid: fresh
      ids, an existing creator, and the new choices on the new poll. */
  lemma InsertPollValid(st: Store, uid: Id, form: PollForm, es: seq<ChoiceEntry>, now: Time)
    requires Valid(st) && HasUser(st, uid) && form.endDate.Some?
    ensures Valid(InsertPoll(st, uid, form, es, now))
  {
    var r := InsertPoll(st, uid, form, es, now);
    var np := NewPoll(st, uid, form, now);
    var cs := NewChoices(Filter(es, Saved), st.nextPoll, st.nextChoice);
    AppendDistinct(st.polls, np, PollKey);
    assert r.choices == st.choices + cs;
    forall i, j | 0 <= i < |r.choices| && 0 <= j < |r.choices| && i != j
      ensures ChoiceKey(r.choices[i]) != ChoiceKey(r.choices[j])
    {
      if i < |st.choices| && j < |st.choices| {
      } else if i < |st.choices| {
        assert r.choices[i] in st.choices;
      } else if j < |st.choices| {
        assert r.choices[j] in st.choices;
      }
    }
    assert np in r.polls;
    forall c | c in r.choices ensures HasPoll(r, c.poll) && c.id < r.nextChoice {
      if c in st.choices {
        assert HasPoll(st, c.poll);
        var p :| p in st.polls && p.id == c.poll;
        assert p in r.polls;
      } else {
        var i :| 0 <= i < |cs| && cs[i] == c;
      }
    }
    forall p | p in r.polls ensures HasUser(r, p.createdBy) && p.id < r.nextPoll {
      if p in st.polls {
        assert HasUser(st, p.createdBy);
      }
    }
    forall v | v in r.votes ensures HasChoice(r, v.choice) {
      assert HasChoice(st, v.choice);
      var c :| c in st.choices && c.id == v.choice;
      assert c in r.choices;
    }
  }

  lemma CreatePollValid(st: Store, uid: Id, form: PollForm, es: seq<ChoiceEntry>, now: Time)
    requires Valid(st) && HasUser(st, uid)
    ensures Valid(CreatePoll(st, uid, form, es, now).0)
  {
    var (r, out) := CreatePoll(st, uid, form, es, now);
    if out == CreateTooFewChoices {
      DeleteInsertedPoll(st, uid, form, es, now);
      SameRowsValid(st, r);
    } else if out.Created? {
      InsertPollValid(st, uid, form, es, now);
    }
  }

  /** Create adds no vote and puts no vote on another poll. */
  lemma CreatePollKeepsOneVote(st: Store, uid: Id, form: PollForm, es: seq<ChoiceEntry>, now: Time)
    requires Valid(st) && OneVotePerPoll(st)
    ensures OneVotePerPoll(CreatePoll(st, uid, form, es, now).0)
  {
    var (r, out) := CreatePoll(st, uid, form, es, now);
    if out == CreateTooFewChoices {
      DeleteInsertedPoll(st, uid, form, es, now);
    } else if out.Created? {
      InsertedChoices(st, uid, form, es, now);
      forall v, p | v in r.votes && VoteOnPoll(r, v, p) ensures VoteOnPoll(st, v, p) {
        var d :| d in r.choices && d.id == v.choice && d.poll == p;
        assert HasChoice(st, v.choice);
        var c :| c in st.choices && c.id == v.choice;
        assert d.id < st.nextChoice;
      }
    }
    OneVoteMonotone(st, r);
  }

  /** The inserted choices take the next ids, on the new poll, and no
      existing choice moves. */
  lemma InsertPollChoiceIds(st: Store, uid: Id, form: PollForm, es: seq<ChoiceEntry>, now: Time, q: Id)
    requires form.endDate.Some?
    ensures ChoiceIds(st, q) <= ChoiceIds(InsertPoll(st, uid, form, es, now), q)
    ensures q == st.nextPoll && Count(es, Saved) >= RequiredChoices ==>
      {st.nextChoice, st.nextChoice + 1} <= ChoiceIds(InsertPoll(st, uid, form, es, now), q)
  {
    var r := InsertPoll(st, uid, form, es, now);
    var cs := NewChoices(Filter(es, Saved), st.nextPoll, st.nextChoice);
    assert r.choices == st.choices + cs;
    if q == st.nextPoll && Count(es, Saved) >= RequiredChoices {
      assert cs[0] in r.choices && cs[1] in r.choices;
    }
  }

  /** A created poll has at least two choices and every other poll keeps
      its own. */
  lemma InsertPollKeepsChoices(st: Store, uid: Id, form: PollForm, es: seq<ChoiceEntry>, now: Time)
    requires PollsHaveChoices(st) && form.endDate.Some? && Count(es, Saved) >= RequiredChoices
    ensures PollsHaveChoices(InsertPoll(st, uid, form, es, now))
  {
    var r := InsertPoll(st, uid, form, es, now);
    forall p | p in r.polls ensures |ChoiceIds(r, p.id)| >= RequiredChoices {
      InsertPollChoiceIds(st, uid, form, es, now, p.id);
      if p in st.polls {
        CardMono(ChoiceIds(st, p.id), ChoiceIds(r, p.id));
      } else {
        assert p.id == st.nextPoll;
        CardMono({st.nextChoice, st.nextChoice + 1}, ChoiceIds(r, p.id));
      }
    }
  }

  /** Create keeps every poll at two choices or more: the new poll has at
      least two, the others keep theirs. */
  lemma CreatePollKeepsChoices(st: Store, uid: Id, form: PollForm, es: seq<ChoiceEntry>, now: Time)
    requires Valid(st) && PollsHaveChoices(st)
    ensures PollsHaveChoices(CreatePoll(st, uid, form, es, now).0)
  {
    var (r, out) := CreatePoll(st, uid, form, es, now);
    if out == CreateTooFewChoices {
      DeleteInsertedPoll(st, uid, form, es, now);
      assert r.polls == st.polls && r.choices == st.choices;
    } else if out.Created? {
      InsertPollKeepsChoices(st, uid, form, es, now);
    }
  }

  // ---------------------------------------------------------------------
  // edit_poll

  /** A step of the edit loop removes votes only, and moves no remaining
      vote to another poll. */
  lemma ApplyEntryVotes(st: Store, pid: Id, e: ChoiceEntry)
    requires Valid(st)
    requires EntryInstance(e) <= ChoiceIds(st, pid)
    ensures VotesNarrowed(st, ApplyEntry(st, pid, e).0)
  {
    var r := ApplyEntry(st, pid, e).0;
    if e.hasData && !Deleted(e) && |e.choiceText| > 0 {
      forall v, p | v in r.votes && VoteOnPoll(r, v, p) ensures VoteOnPoll(st, v, p) {
        var d :| d in r.choices && d.id == v.choice && d.poll == p;
        var i :| 0 <= i < |r.choices| && r.choices[i] == d;
        if e.instance.Some? {
          if st.choices[i].id == e.instance.value {
            assert e.instance.value in ChoiceIds(st, pid);
          } else {
            assert st.choices[i] == d;
          }
        } else {
          assert HasChoice(st, v.choice);
          var c :| c in st.choices && c.id == v.choice;
          assert i < |st.choices|;
          assert st.choices[i] == d;
        }
      }
    } else if e.hasData && Deleted(e) && e.instance.Some? {
      FilterMultiset(st.votes, VoteNotFor(e.instance.value));
    }
  }

  lemma {:induction false} ApplyEntriesVotes(st: Store, pid: Id, es: seq<ChoiceEntry>)
    requires Valid(st) && HasPoll(st, pid)
    requires Instances(es) <= ChoiceIds(st, pid)
    requires DistinctInstances(es)
    ensures VotesNarrowed(st, ApplyEntries(st, pid, es).0)
    decreases |es|
  {
    if |es| > 0 {
      var st1 := ApplyEntry(st, pid, es[0]).0;
      var r := ApplyEntries(st, pid, es).0;
      ApplyEntryVotes(st, pid, es[0]);
      ApplyEntryValid(st, pid, es[0]);
      ApplyEntryBound(st, pid, es[0], Instances(es[1..]));
      ApplyEntriesVotes(st1, pid, es[1..]);
      forall v, p | v in r.votes && VoteOnPoll(r, v, p) ensures VoteOnPoll(st, v, p) {
        assert v in multiset(st1.votes);
      }
    }
  }

  /** The edit view removes votes only (with the choices deleted), and
      moves no remaining vote to another poll. */
  lemma EditPollKeepsOneVote(st: Store, uid: Id, pid: Id, form: PollForm, es: seq<ChoiceEntry>, now: Time)
    requires Valid(st) && OneVotePerPoll(st)
    ensures OneVotePerPoll(EditPoll(st, uid, pid, form, es, now).0)
    ensures OneVotePerPoll(EditPollAtomic(st, uid, pid, form, es, now).0)
  {
    var (r, out) := EditPoll(st, uid, pid, form, es, now);
    if out == Updated || out == EditTooFewChoices {
      var st0 := st.(polls := UpdatePollFields(st.polls, pid, form));
      UpdatePollFieldsValid(st, pid, form);
      assert ChoiceIds(st0, pid) == ChoiceIds(st, pid);
      ApplyEntriesVotes(st0, pid, es);
      OneVoteMonotone(st, r);
    }
  }

  // ---------------------------------------------------------------------
  // delete_poll

  /** Deleting a poll keeps every other poll's choices. */
  lemma DeletePollChoiceIds(st: Store, pid: Id, q: Id)
    requires q != pid
    ensures ChoiceIds(DeletePoll(st, pid), q) == ChoiceIds(st, q)
  {
  }

  /** Deleting a poll removes votes only, and those left keep their poll. */
  lemma DeletePollNarrowsVotes(st: Store, pid: Id)
    ensures VotesNarrowed(st, DeletePoll(st, pid))
  {
    var r := DeletePoll(st, pid);
    FilterMultiset(st.votes, VoteNotOn(st, pid));
    forall v, p | v in r.votes && VoteOnPoll(r, v, p) ensures VoteOnPoll(st, v, p) {
      var c :| c in r.choices && c.id == v.choice && c.poll == p;
      assert c in st.choices;
    }
  }

  /** The delete view keeps the invariant. */
  lemma DeleteOwnedPollKeepsInvariant(st: Store, uid: Id, pid: Id)
    requires Invariant(st)
    ensures Invariant(DeleteOwnedPoll(st, uid, pid).0)
  {
    var (r, out) := DeleteOwnedPoll(st, uid, pid);
    if out == PollDeleted {
      Integrity.DeletePollValid(st, pid);
      DeletePollNarrowsVotes(st, pid);
      OneVoteMonotone(st, r);
      forall p | p in r.polls ensures |ChoiceIds(r, p.id)| >= RequiredChoices {
        DeletePollChoiceIds(st, pid, p.id);
      }
    }
  }

  // ---------------------------------------------------------------------
  // All views

  /** A submitted request of a logged-in user. */
  datatype Request =
    | CastVoteRequest(user: Id, poll: Id, choice: Option<Id>)
    | CreatePollRequest(user: Id, form: PollForm, entries: seq<ChoiceEntry>)
    | EditPollRequest(user: Id, poll: Id, form: PollForm, entries: seq<ChoiceEntry>)
    | DeletePollRequest(user: Id, poll: Id)

  /** The store after one request, handled at `now`. */
  function Step(st: Store, req: Request, now: Time): (r: Store)
    ensures r.users == st.users
  {
    match req
    case CastVoteRequest(u, p, c) => CastVote(st, u, p, c, now).0
    case CreatePollRequest(u, f, es) =>
      var r := CreatePoll(st, u, f, es, now).0;
      assert r.users == st.users by {
        if CreatePoll(st, u, f, es, now).1 == CreateTooFewChoices {
          assert DeletePoll(InsertPoll(st, u, f, es, now), st.nextPoll).users == st.users;
        }
      }
      r
    case EditPollRequest(u, p, f, es) =>
      var r := EditPollAtomic(st, u, p, f, es, now).0;
      assert r.users == st.users by {
        if r != st {
          UsersKeptByEdit(st.(polls := UpdatePollFields(st.polls, p, f)), p, es);
        }
      }
      r
    case DeletePollRequest(u, p) => DeleteOwnedPoll(st, u, p).0
  }

  lemma {:induction false} UsersKeptByEdit(st: Store, pid: Id, es: seq<ChoiceEntry>)
    ensures ApplyEntries(st, pid, es).0.users == st.users
    decreases |es|
  {
    if |es| > 0 {
      UsersKeptByEdit(ApplyEntry(st, pid, es[0]).0, pid, es[1..]);
    }
  }

  /** Every request of an existing user keeps the invariant. */
  lemma StepKeepsInvariant(st: Store, req: Request, now: Time)
    requires Invariant(st) && HasUser(st, req.user)
    ensures Invariant(Step(st, req, now))
  {
    match req
    case CastVoteRequest(u, p, c) =>
      var r := Step(st, req, now);
      CastVoteValid(st, u, p, c, now);
      CastVoteKeepsOneVote(st, u, p, c, now);
      assert forall q :: ChoiceIds(r, q) == ChoiceIds(st, q);
    case CreatePollRequest(u, f, es) =>
      CreatePollValid(st, u, f, es, now);
      CreatePollKeepsOneVote(st, u, f, es, now);
      CreatePollKeepsChoices(st, u, f, es, now);
    case EditPollRequest(u, p, f, es) =>
      EditPollValid(st, u, p, f, es, now);
      EditPollKeepsOneVote(st, u, p, f, es, now);
      EditPollAtomicKeepsChoices(st, u, p, f, es, now);
    case DeletePollRequest(u, p) =>
      DeleteOwnedPollKeepsInvariant(st, u, p);
  }

  /** The store after the requests in order, each with its own time. */
  function Run(st: Store, reqs: seq<(Request, Time)>): Store
    decreases |reqs|
  {
    if |reqs| == 0 then st else Run(Step(st, reqs[0].0, reqs[0].1), reqs[1..])
  }

  /** Any run of requests by existing users keeps the invariant. */
  lemma {:induction false} RunKeepsInvariant(st: Store, reqs: seq<(Request, Time)>)
    requires Invariant(st)
    requires forall i :: 0 <= i < |reqs| ==> HasUser(st, reqs[i].0.user)
    ensures Invariant(Run(st, reqs))
    decreases |reqs|
  {
    if |reqs| > 0 {
      var st1 := Step(st, reqs[0].0, reqs[0].1);
      StepKeepsInvariant(st, reqs[0].0, reqs[0].1);
      forall i | 0 <= i < |reqs[1..]| ensures HasUser(st1, reqs[1..][i].0.user) {
        assert reqs[1..][i] == reqs[i + 1];
      }
      RunKeepsInvariant(st1, reqs[1..]);
    }
  }
}

=== FILE: listing.dfy ===
/** The read-side poll lists: the index page (active polls only, an
    optional case-insensitive search over question, description and
    creator's username, an optional status filter, newest first) and the
    requester's own polls. */
module Listing {
  import opened Seqs
  import opened Models
  import opened Sorting

  // ---------------------------------------------------------------------
  // Case-insensitive containment

  /** ASCII lower-casing of one character. */
  function LowerChar(c: char): char
  {
    if 'A' <= c <= 'Z' then (c as int + 32) as char else c
  }

  function Lower(s: string): (r: string)
    ensures |r| == |s|
    ensures forall i :: 0 <= i < |s| ==> r[i] == LowerChar(s[i])
  {
    seq(|s|, i requires 0 <= i < |s| => LowerChar(s[i]))
  }

  /** `needle` occurs in `hay` at some position. */
  predicate Contains(hay: string, needle: string)
    decreases |hay|
  {
    needle <= hay || (|hay| > 0 && Contains(hay[1..], needle))
  }

  /** `icontains`: containment after lower-casing both sides. */
  predicate ContainsCI(hay: string, needle: string)
  {
    Contains(Lower(hay), Lower(needle))
  }

  /** `needle` occurs in `hay` starting at position `i`. */
  predicate OccursAt(hay: string, needle: string, i: int)
  {
    0 <= i && i + |needle| <= |hay| && hay[i..i + |needle|] == needle
  }

  lemma {:induction false} ContainsOccurs(hay: string, needle: string)
    requires Contains(hay, needle)
    ensures exists i :: OccursAt(hay, needle, i)
    decreases |hay|
  {
    var n := |needle|;
    if needle <= hay {
      assert OccursAt(hay, needle, 0);
    } else {
      ContainsOccurs(hay[1..], needle);
      var i :| OccursAt(hay[1..], needle, i);
      assert hay[1..][i..i + n] == hay[i + 1..i + 1 + n];
      assert OccursAt(hay, needle, i + 1);
    }
  }

  lemma {:induction false} OccursContains(hay: string, needle: string, i: int)
    requires OccursAt(hay, needle, i)
    ensures Contains(hay, needle)
    decreases |hay|
  {
    var n := |needle|;
    if i == 0 {
      assert needle == hay[..n];
    } else {
      assert hay[1..][i - 1..i - 1 + n] == hay[i..i + n];
      OccursContains(hay[1..], needle, i - 1);
    }
  }

  /** `Contains` agrees with the direct definition: `needle` occurs in
      `hay` at some position. */
  lemma ContainsAt(hay: string, needle: string)
    ensures Contains(hay, needle) <==> exists i :: OccursAt(hay, needle, i)
  {
    if Contains(hay, needle) {
      ContainsOccurs(hay, needle);
    }
    if exists i :: OccursAt(hay, needle, i) {
      var i :| OccursAt(hay, needle, i);
      OccursContains(hay, needle, i);
    }
  }

  lemma LowerIdempotent(s: string)
    ensures Lower(Lower(s)) == Lower(s)
  {
  }

  // ---------------------------------------------------------------------
  // The index page

  /** The status filter of the query string; anything but the three names
      means no filter. */
  datatype Status = AllPolls | ActivePolls | UpcomingPolls | ClosedPolls

  function ParseStatus(s: string): (r: Status)
    ensures r == ActivePolls <==> s == "active"
    ensures r == UpcomingPolls <==> s == "upcoming"
    ensures r == ClosedPolls <==> s == "closed"
  {
    if s == "active" then ActivePolls
    else if s == "upcoming" then UpcomingPolls
    else if s == "closed" then ClosedPolls
    else AllPolls
  }

  predicate StatusMatches(p: Poll, status: Status, now: Time)
  {
    match status
    case AllPolls => true
    case ActivePolls => p.startDate <= now && p.endDate >= now
    case UpcomingPolls => p.startDate > now
    case ClosedPolls => p.endDate < now
  }

  /** The creator's username contains `q`, case-insensitively (the join
      `created_by__username`). */
  predicate CreatorMatches(st: Store, p: Poll, q: string)
  {
    exists u :: u in st.users && u.id == p.createdBy && ContainsCI(u.username, q)
  }

  predicate MatchesSearch(st: Store, p: Poll, q: string)
  {
    ContainsCI(p.question, q) || ContainsCI(p.description, q) || CreatorMatches(st, p, q)
  }

  /** The index page's filter: active, matching the search when one is
      given, and matching the status. */
  function Listed(st: Store, q: string, status: string, now: Time): Poll -> bool
  {
    (p: Poll) =>
      && p.isActive
      && (q == "" || MatchesSearch(st, p, q))
      && StatusMatches(p, ParseStatus(status), now)
  }

  function CreatedKey(p: Poll): int { p.createdDate }

  /** The index page: the listed polls, newest first. */
  function Index(st: Store, q: string, status: string, now: Time): (r: seq<Poll>)
    ensures multiset(r) == multiset(Filter(st.polls, Listed(st, q, status, now)))
    ensures SortedDesc(r, CreatedKey)
  {
    SortDesc(Filter(st.polls, Listed(st, q, status, now)), CreatedKey)
  }

  function CreatedByUser(uid: Id): Poll -> bool { (p: Poll) => p.createdBy == uid }

  /** The requester's polls, active or not, newest first. */
  function MyPolls(st: Store, uid: Id): (r: seq<Poll>)
    ensures forall p :: p in r <==> p in st.polls && p.createdBy == uid
    ensures |r| == Count(st.polls, CreatedByUser(uid))
    ensures SortedDesc(r, CreatedKey)
  {
    var mine := Filter(st.polls, CreatedByUser(uid));
    var r := SortDesc(mine, CreatedKey);
    forall p ensures p in r <==> p in st.polls && p.createdBy == uid {
      assert p in r <==> p in multiset(r);
      assert p in mine <==> p in multiset(mine);
    }
    assert |r| == |multiset(r)| == |multiset(mine)| == |mine|;
    r
  }

  // ---------------------------------------------------------------------
  // Properties

  /** The index lists exactly the active polls that match the search and
      status. */
  lemma IndexMembers(st: Store, q: string, status: string, now: Time, p: Poll)
    ensures p in Index(st, q, status, now) <==>
      p in st.polls && p.isActive && (q == "" || MatchesSearch(st, p, q))
      && StatusMatches(p, ParseStatus(status), now)
  {
    var r := Index(st, q, status, now);
    var listed := Filter(st.polls, Listed(st, q, status, now));
    assert p in r <==> p in multiset(r);
    assert p in listed <==> p in multiset(listed);
  }

  /** The 'active' listing holds exactly the listed polls open for voting. */
  lemma ActiveListingIsOpen(st: Store, q: string, now: Time, p: Poll)
    ensures p in Index(st, q, "active", now) <==>
      p in st.polls && IsVotingOpen(p, now) && (q == "" || MatchesSearch(st, p, q))
  {
    IndexMembers(st, q, "active", now, p);
  }

  /** A status other than the three names filters nothing. */
  lemma UnknownStatusListsAll(st: Store, q: string, status: string, now: Time)
    requires status != "active" && status != "upcoming" && status != "closed"
    ensures Index(st, q, status, now) == Index(st, q, "all", now)
  {
    FilterExt(st.polls, Listed(st, q, status, now), Listed(st, q, "all", now));
  }

  /** The search ignores case: searching for `q` or its lower-case form
      lists the same polls. */
  lemma SearchIgnoresCase(st: Store, q: string, status: string, now: Time)
    ensures Index(st, q, status, now) == Index(st, Lower(q), status, now)
  {
    LowerIdempotent(q);
    forall p | p in st.polls
      ensures Listed(st, q, status, now)(p) <==> Listed(st, Lower(q), status, now)(p)
    {
      if CreatorMatches(st, p, q) {
        var u :| u in st.users && u.id == p.createdBy && ContainsCI(u.username, q);
        assert ContainsCI(u.username, Lower(q));
      }
      if CreatorMatches(st, p, Lower(q)) {
        var u :| u in st.users && u.id == p.createdBy && ContainsCI(u.username, Lower(q));
        assert ContainsCI(u.username, q);
      }
    }
    FilterExt(st.polls, Listed(st, q, status, now), Listed(st, Lower(q), status, now));
  }

  /** For polls that do not end before they start, the three status
      listings split the unfiltered listing: every listed poll is in
      exactly one of them. */
  lemma StatusesPartition(st: Store, q: string, now: Time)
    requires forall p :: p in st.polls ==> p.startDate <= p.endDate
    ensures |Index(st, q, "all", now)|
         == |Index(st, q, "active", now)| + |Index(st, q, "upcoming", now)| + |Index(st, q, "closed", now)|
  {
    var all := Listed(st, q, "all", now);
    var active := Listed(st, q, "active", now);
    var upcoming := Listed(st, q, "upcoming", now);
    var closed := Listed(st, q, "closed", now);
    var later := (p: Poll) => upcoming(p) || closed(p);
    CountSplit(st.polls, all, active, later);
    CountSplit(st.polls, later, upcoming, closed);
    assert |Index(st, q, "all", now)| == Count(st.polls, all) by {
      assert |multiset(Index(st, q, "all", now))| == |multiset(Filter(st.polls, all))|;
    }
    assert |Index(st, q, "active", now)| == Count(st.polls, active) by {
      assert |multiset(Index(st, q, "active", now))| == |multiset(Filter(st.polls, active))|;
    }
    assert |Index(st, q, "upcoming", now)| == Count(st.polls, upcoming) by {
      assert |multiset(Index(st, q, "upcoming", now))| == |multiset(Filter(st.polls, upcoming))|;
    }
    assert |Index(st, q, "closed", now)| == Count(st.polls, closed) by {
      assert |multiset(Index(st, q, "closed", now))| == |multiset(Filter(st.polls, closed))|;
    }
  }
}

=== FILE: models.dfy ===
/** The data layer of the polls application: users, polls, choices and
    votes held in one immutable store, the per-poll derived values
    (voting window, vote totals, percentages) and the cascading deletes
    that the foreign keys declare. */
module Models {
  import opened Wrappers
  import opened Seqs

  /** Primary keys are auto-incremented natural numbers. */
  type Id = nat

  /** A timestamp, in seconds. */
  type Time = int

  datatype User = User(id: Id, username: string)

  datatype Poll = Poll(
    id: Id,
    question: string,
    description: string,
    createdDate: Time,
    startDate: Time,
    endDate: Time,
    createdBy: Id,   // foreign key to User, on delete cascade
    isActive: bool)

  datatype Choice = Choice(
    id: Id,
    poll: Id,        // foreign key to Poll, on delete cascade
    choiceText: string,
    description: string)

  datatype Vote = Vote(
    id: Id,
    user: Id,        // foreign key to User, on delete cascade
    choice: Id,      // foreign key to Choice, on delete cascade
    votedAt: Time)

  /** The database: one table per model, rows in primary-key order, and the
      next value of each auto-increment sequence. Users are created by the
      accounts layer, so they carry no sequence here. */
  datatype Store = Store(
    users: seq<User>,
    polls: seq<Poll>,
    choices: seq<Choice>,
    votes: seq<Vote>,
    nextPoll: Id,
    nextChoice: Id,
    nextVote: Id)

  function UserKey(u: User): Id { u.id }
  function PollKey(p: Poll): Id { p.id }
  function ChoiceKey(c: Choice): Id { c.id }
  function VoteKey(v: Vote): Id { v.id }

  predicate HasUser(st: Store, uid: Id) { exists u :: u in st.users && u.id == uid }
  predicate HasPoll(st: Store, pid: Id) { exists p :: p in st.polls && p.id == pid }
  predicate HasChoice(st: Store, cid: Id) { exists c :: c in st.choices && c.id == cid }

  /** Referential integrity: every foreign key names an existing row. */
  ghost predicate NoOrphans(st: Store)
  {
    && (forall p :: p in st.polls ==> HasUser(st, p.createdBy))
    && (forall c :: c in st.choices ==> HasPoll(st, c.poll))
    && (forall v :: v in st.votes ==> HasUser(st, v.user) && HasChoice(st, v.choice))
  }

  /** Primary keys are unique and below their sequence, and there are no
      orphans. */
  ghost predicate Valid(st: Store)
  {
    && Distinct(st.users, UserKey)
    && Distinct(st.polls, PollKey)
    && Distinct(st.choices, ChoiceKey)
    && Distinct(st.votes, VoteKey)
    && (forall p :: p in st.polls ==> p.id < st.nextPoll)
    && (forall c :: c in st.choices ==> c.id < st.nextChoice)
    && (forall v :: v in st.votes ==> v.id < st.nextVote)
    && NoOrphans(st)
  }

  /** The store holds the same rows as `st`, whatever its sequences say. */
  predicate SameRows(st: Store, st': Store)
  {
    st'.users == st.users && st'.polls == st.polls && st'.choices == st.choices && st'.votes == st.votes
  }

  // ---------------------------------------------------------------------
  // Derived values of a poll and a choice

  /** Voting is open while the poll is active and `now` lies in the closed
      interval [startDate, endDate]. */
  predicate IsVotingOpen(p: Poll, now: Time)
  {
    p.startDate <= now <= p.endDate && p.isActive
  }

  function BelongsTo(pid: Id): Choice -> bool { (c: Choice) => c.poll == pid }

  /** The poll's choices (`poll.choices.all()`), in table order. */
  function ChoicesOf(st: Store, pid: Id): (r: seq<Choice>)
    ensures forall c :: c in r <==> c in st.choices && c.poll == pid
  {
    Filter(st.choices, BelongsTo(pid))
  }

  /** The vote's choice belongs to poll `pid` (the join `choice__poll`). */
  predicate VoteOnPoll(st: Store, v: Vote, pid: Id)
  {
    exists c :: c in st.choices && c.id == v.choice && c.poll == pid
  }

  function OnPoll(st: Store, pid: Id): Vote -> bool { (v: Vote) => VoteOnPoll(st, v, pid) }

  /** `Poll.total_votes`: the votes whose choice belongs to the poll. */
  function TotalVotes(st: Store, pid: Id): nat
  {
    Count(st.votes, OnPoll(st, pid))
  }

  function VotesFor(c: Choice): Vote -> bool { (v: Vote) => v.choice == c.id }

  /** `Choice.vote_count`: the votes that reference the choice. */
  function VoteCount(st: Store, c: Choice): nat
  {
    Count(st.votes, VotesFor(c))
  }

  /** `Choice.vote_percentage`: the choice's share of its poll's votes, in
      percent, and 0 for a poll without votes. */
  function VotePercentage(st: Store, c: Choice): real
  {
    var total := TotalVotes(st, c.poll);
    if total == 0 then 0.0 else (VoteCount(st, c) as real / total as real) * 100.0
  }

  // ---------------------------------------------------------------------
  // Cascading deletes

  function ChoiceNotId(cid: Id): Choice -> bool { (c: Choice) => c.id != cid }
  function VoteNotFor(cid: Id): Vote -> bool { (v: Vote) => v.choice != cid }

  /** `Choice.delete()`: removes the choice and, through `Vote.choice`, the
      votes on it. */
  function DeleteChoice(st: Store, cid: Id): (r: Store)
    ensures r.users == st.users && r.polls == st.polls
    ensures r.nextPoll == st.nextPoll && r.nextChoice == st.nextChoice && r.nextVote == st.nextVote
    ensures forall c :: c in r.choices <==> c in st.choices && c.id != cid
    ensures forall v :: v in r.votes <==> v in st.votes && v.choice != cid
  {
    st.(choices := Filter(st.choices, ChoiceNotId(cid)), votes := Filter(st.votes, VoteNotFor(cid)))
  }

  function PollNotId(pid: Id): Poll -> bool { (p: Poll) => p.id != pid }
  function ChoiceNotOf(pid: Id): Choice -> bool { (c: Choice) => c.poll != pid }
  function VoteNotOn(st: Store, pid: Id): Vote -> bool { (v: Vote) => !VoteOnPoll(st, v, pid) }

  /** `Poll.delete()`: removes the poll, through `Choice.poll` its choices,
      and through `Vote.choice` every vote on those choices. */
  function DeletePoll(st: Store, pid: Id): (r: Store)
    ensures r.users == st.users
    ensures r.nextPoll == st.nextPoll && r.nextChoice == st.nextChoice && r.nextVote == st.nextVote
    ensures forall p :: p in r.polls <==> p in st.polls && p.id != pid
    ensures forall c :: c in r.choices <==> c in st.choices && c.poll != pid
    ensures forall v :: v in r.votes <==> v in st.votes && !VoteOnPoll(st, v, pid)
  {
    st.(polls := Filter(st.polls, PollNotId(pid)),
        choices := Filter(st.choices, ChoiceNotOf(pid)),
        votes := Filter(st.votes, VoteNotOn(st, pid)))
  }

  /** The choice belongs to a poll created by `uid`. */
  predicate ChoiceOwnedBy(st: Store, c: Choice, uid: Id)
  {
    exists p :: p in st.polls && p.id == c.poll && p.createdBy == uid
  }

  /** The vote is on a poll created by `uid` (the join
      `choice__poll__created_by`). */
  predicate VoteOnPollOf(st: Store, v: Vote, uid: Id)
  {
    exists c :: c in st.choices && c.id == v.choice && ChoiceOwnedBy(st, c, uid)
  }

  function UserNotId(uid: Id): User -> bool { (u: User) => u.id != uid }
  function NotCreatedBy(uid: Id): Poll -> bool { (p: Poll) => p.createdBy != uid }
  function ChoiceNotOwnedBy(st: Store, uid: Id): Choice -> bool { (c: Choice) => !ChoiceOwnedBy(st, c, uid) }
  function VoteSurvivesUser(st: Store, uid: Id): Vote -> bool
  {
    (v: Vote) => v.user != uid && !VoteOnPollOf(st, v, uid)
  }

  /** Deleting a user: through `Poll.created_by` their polls go (and with
      them those polls' choices and votes), and through `Vote.user` their
      own votes. */
  function DeleteUser(st: Store, uid: Id): (r: Store)
    ensures r.nextPoll == st.nextPoll && r.nextChoice == st.nextChoice && r.nextVote == st.nextVote
    ensures forall u :: u in r.users <==> u in st.users && u.id != uid
    ensures forall p :: p in r.polls <==> p in st.polls && p.createdBy != uid
    ensures forall c :: c in r.choices <==> c in st.choices && !ChoiceOwnedBy(st, c, uid)
    ensures forall v :: v in r.votes <==> v in st.votes && v.user != uid && !VoteOnPollOf(st, v, uid)
  {
    st.(users := Filter(st.users, UserNotId(uid)),
        polls := Filter(st.polls, NotCreatedBy(uid)),
        choices := Filter(st.choices, ChoiceNotOwnedBy(st, uid)),
        votes := Filter(st.votes, VoteSurvivesUser(st, uid)))
  }
}

=== FILE: profile.dfy ===
/** The requester's profile page and voting history: counts of the polls
    they created, of those still running, of the votes they cast and of
    the votes their polls received; their five newest polls and votes; and
    the full list of their votes, newest first. */
module Profile {
  import opened Seqs
  import opened Models
  import opened Sorting
  import opened Listing
  import Voting

  /** Number of newest polls and votes the profile page shows. */
  const RecentLimit := 5

  datatype ProfileStats = ProfileStats(
    totalPollsCreated: nat,
    activePolls: nat,
    totalVotesCast: nat,
    totalVotesReceived: nat)

  /** The profile page's notion of a running poll: active and ending
      strictly after `now`; the start date plays no part. */
  function RunningAt(uid: Id, now: Time): Poll -> bool
  {
    (p: Poll) => p.createdBy == uid && p.isActive && p.endDate > now
  }

  /** The requester's polls in table order (`user_polls`). */
  function UserPolls(st: Store, uid: Id): (r: seq<Poll>)
    ensures forall p :: p in r <==> p in st.polls && p.createdBy == uid
  {
    Filter(st.polls, CreatedByUser(uid))
  }

  /** Relates a poll to the votes on its choices. */
  function VotesOnPoll(st: Store): Poll -> Vote -> bool { (p: Poll) => OnPoll(st, p.id) }

  /** Sum of the totals of `ps`. */
  function SumTotals(st: Store, ps: seq<Poll>): nat
  {
    if |ps| == 0 then 0 else TotalVotes(st, ps[0].id) + SumTotals(st, ps[1..])
  }

  function CastBy(uid: Id): Vote -> bool { (v: Vote) => v.user == uid }

  function ReceivedBy(st: Store, uid: Id): Vote -> bool { (v: Vote) => VoteOnPollOf(st, v, uid) }

  /** The profile page's four counts. The running polls are among those
      created, no count exceeds its table, and polls created is 0 exactly
      when the requester owns no poll. */
  function Stats(st: Store, uid: Id, now: Time): (r: ProfileStats)
    ensures r.activePolls <= r.totalPollsCreated <= |st.polls|
    ensures r.totalVotesCast <= |st.votes| && r.totalVotesReceived <= |st.votes|
    ensures r.totalPollsCreated == 0 <==> forall p :: p in st.polls ==> p.createdBy != uid
  {
    CountMono(st.polls, CreatedByUser(uid), RunningAt(uid, now));
    var mine := Filter(st.polls, CreatedByUser(uid));
    assert |mine| > 0 ==> mine[0] in mine;
    ProfileStats(
      Count(st.polls, CreatedByUser(uid)),
      Count(st.polls, RunningAt(uid, now)),
      Count(st.votes, CastBy(uid)),
      Count(st.votes, ReceivedBy(st, uid)))
  }

  function VotedKey(v: Vote): int { v.votedAt }

  /** The voting history page: the requester's votes, newest first, and
      their number. */
  function VotingHistory(st: Store, uid: Id): (r: (seq<Vote>, nat))
    ensures forall v :: v in r.0 <==> v in st.votes && v.user == uid
    ensures multiset(r.0) == multiset(Filter(st.votes, CastBy(uid)))
    ensures SortedDesc(r.0, VotedKey)
    ensures r.1 == |r.0|
  {
    var mine := Filter(st.votes, CastBy(uid));
    var votes := SortDesc(mine, VotedKey);
    forall v ensures v in votes <==> v in st.votes && v.user == uid {
      assert v in votes <==> v in multiset(votes);
      assert v in mine <==> v in multiset(mine);
    }
    assert |votes| == |multiset(votes)| == |multiset(mine)| == |mine|;
    (votes, Count(st.votes, CastBy(uid)))
  }

  /** The profile page's newest polls: the first five of the requester's
      polls newest first (all of them when they have fewer), and none left out is
      newer than one shown. */
  function RecentPolls(st: Store, uid: Id): (r: seq<Poll>)
    ensures |r| == if |MyPolls(st, uid)| < RecentLimit then |MyPolls(st, uid)| else RecentLimit
    ensures r == MyPolls(st, uid)[..|r|]
    ensures forall p :: p in r ==> p in st.polls && p.createdBy == uid
    ensures SortedDesc(r, CreatedKey)
    ensures forall i, j :: 0 <= i < |r| <= j < |MyPolls(st, uid)| ==> r[i].createdDate >= MyPolls(st, uid)[j].createdDate
  {
    TakeSortedDesc(MyPolls(st, uid), RecentLimit, CreatedKey);
    Take(MyPolls(st, uid), RecentLimit)
  }

  /** The profile page's newest votes: the first five of the requester's
      votes newest first (all of them when they have fewer), and none left out is
      newer than one shown. */
  function RecentVotes(st: Store, uid: Id): (r: seq<Vote>)
    ensures |r| == if |VotingHistory(st, uid).0| < RecentLimit then |VotingHistory(st, uid).0| else RecentLimit
    ensures r == VotingHistory(st, uid).0[..|r|]
    ensures forall v :: v in r ==> v in st.votes && v.user == uid
    ensures SortedDesc(r, VotedKey)
    ensures forall i, j :: 0 <= i < |r| <= j < |VotingHistory(st, uid).0| ==> r[i].votedAt >= VotingHistory(st, uid).0[j].votedAt
  {
    TakeSortedDesc(VotingHistory(st, uid).0, RecentLimit, VotedKey);
    Take(VotingHistory(st, uid).0, RecentLimit)
  }

  // ---------------------------------------------------------------------
  // Properties

  /** The statistics agree with the lists: polls created is the length of
      the requester's poll list, votes cast that of their history, and the
      running polls are among the created ones. */
  lemma StatsMatchLists(st: Store, uid: Id, now: Time)
    ensures Stats(st, uid, now).totalPollsCreated == |MyPolls(st, uid)|
    ensures Stats(st, uid, now).totalVotesCast == |VotingHistory(st, uid).0| == VotingHistory(st, uid).1
    ensures Stats(st, uid, now).activePolls <= Stats(st, uid, now).totalPollsCreated
  {
    CountMono(st.polls, CreatedByUser(uid), RunningAt(uid, now));
    assert |multiset(VotingHistory(st, uid).0)| == |multiset(Filter(st.votes, CastBy(uid)))|;
  }

  lemma CreatedRows(st: Store, uid: Id)
    requires Distinct(st.polls, PollKey)
    ensures Count(st.polls, CreatedByUser(uid)) == |set p | p in st.polls && p.createdBy == uid|
  {
    var f := CreatedByUser(uid);
    CountIsSetSize(st.polls, f, PollKey);
    assert Matching(st.polls, f) == (set p | p in st.polls && p.createdBy == uid);
  }

  lemma RunningRows(st: Store, uid: Id, now: Time)
    requires Distinct(st.polls, PollKey)
    ensures Count(st.polls, RunningAt(uid, now)) ==
      |set p | p in st.polls && p.createdBy == uid && p.isActive && p.endDate > now|
  {
    var f := RunningAt(uid, now);
    CountIsSetSize(st.polls, f, PollKey);
    assert Matching(st.polls, f) == (set p | p in st.polls && p.createdBy == uid && p.isActive && p.endDate > now);
  }

  lemma CastRows(st: Store, uid: Id)
    requires Distinct(st.votes, VoteKey)
    ensures Count(st.votes, CastBy(uid)) == |set v | v in st.votes && v.user == uid|
  {
    var f := CastBy(uid);
    CountIsSetSize(st.votes, f, VoteKey);
    assert Matching(st.votes, f) == (set v | v in st.votes && v.user == uid);
  }

  lemma ReceivedRows(st: Store, uid: Id)
    requires Distinct(st.votes, VoteKey)
    ensures Count(st.votes, ReceivedBy(st, uid)) == |set v | v in st.votes && VoteOnPollOf(st, v, uid)|
  {
    var f := ReceivedBy(st, uid);
    CountIsSetSize(st.votes, f, VoteKey);
    assert Matching(st.votes, f) == (set v | v in st.votes && VoteOnPollOf(st, v, uid));
  }

  /** Each statistic counts distinct rows: polls created is the number of
      the requester's polls, running polls the number of those active and
      ending after `now`, votes cast the number of their votes, and votes
      received the number of votes on their polls' choices. */
  lemma StatsCountRows(st: Store, uid: Id, now: Time)
    requires Valid(st)
    ensures Stats(st, uid, now).totalPollsCreated == |set p | p in st.polls && p.createdBy == uid|
    ensures Stats(st, uid, now).activePolls ==
      |set p | p in st.polls && p.createdBy == uid && p.isActive && p.endDate > now|
    ensures Stats(st, uid, now).totalVotesCast == |set v | v in st.votes && v.user == uid|
    ensures Stats(st, uid, now).totalVotesReceived == |set v | v in st.votes && VoteOnPollOf(st, v, uid)|
  {
    CreatedRows(st, uid);
    RunningRows(st, uid, now);
    CastRows(st, uid);
    ReceivedRows(st, uid);
  }

  /** The running count differs from `is_voting_open`: it also counts
      polls that have not started yet, and leaves out a poll on the last
      instant of its window. */
  lemma RunningVersusOpen(p: Poll, now: Time)
    ensures RunningAt(p.createdBy, now)(p) <==>
      (IsVotingOpen(p, now) && p.endDate != now) || (p.isActive && p.startDate > now && p.endDate > now)
  {
  }

  /** Votes received are the votes on the requester's polls: with unique
      ids every such vote is on exactly one of them, so the count equals
      the sum of those polls' totals. */
  lemma ReceivedIsSumOfTotals(st: Store, uid: Id, now: Time)
    requires Valid(st)
    ensures Stats(st, uid, now).totalVotesReceived == SumTotals(st, UserPolls(st, uid))
  {
    var ps := UserPolls(st, uid);
    var rel := VotesOnPoll(st);
    FilterDistinct(st.polls, CreatedByUser(uid), PollKey);
    SumTotalsIsSumCounts(st, ps);
    forall v, i, j | v in st.votes && 0 <= i < |ps| && 0 <= j < |ps| && i != j
      ensures !(rel(ps[i])(v) && rel(ps[j])(v))
    {
      if rel(ps[i])(v) && rel(ps[j])(v) {
        Voting.VoteOnOnePoll(st, v, ps[i].id, ps[j].id);
      }
    }
    SumCountsDisjoint(st.votes, ps, rel);
    forall v | v in st.votes ensures RelatedToSome(ps, rel)(v) <==> ReceivedBy(st, uid)(v) {
      if VoteOnPollOf(st, v, uid) {
        var c :| c in st.choices && c.id == v.choice && ChoiceOwnedBy(st, c, uid);
        var p :| p in st.polls && p.id == c.poll && p.createdBy == uid;
        assert p in ps && rel(p)(v);
      }
      if RelatedToSome(ps, rel)(v) {
        var p :| p in ps && rel(p)(v);
        var c :| c in st.choices && c.id == v.choice && c.poll == p.id;
        assert ChoiceOwnedBy(st, c, uid);
      }
    }
    CountExt(st.votes, RelatedToSome(ps, rel), ReceivedBy(st, uid));
  }

  lemma {:induction false} SumTotalsIsSumCounts(st: Store, ps: seq<Poll>)
    ensures SumTotals(st, ps) == SumCounts(st.votes, ps, VotesOnPoll(st))
  {
    if |ps| > 0 {
      SumTotalsIsSumCounts(st, ps[1..]);
    }
  }
}

=== FILE: seqs.dfy ===
/** Query building blocks over tables held as sequences of rows: filtering
    (`.filter(...)`), counting (`.count()`), first match (`.first()`/`.get()`),
    key uniqueness, and sums of per-key counts. */
module Seqs {
  import opened Wrappers

  /** The rows of `s` that satisfy `f`, in table order. */
  function Filter<T(!new)>(s: seq<T>, f: T -> bool): (r: seq<T>)
    ensures |r| <= |s|
    ensures forall x :: x in r <==> x in s && f(x)
  {
    if |s| == 0 then []
    else
      assert s == [s[0]] + s[1..];
      (if f(s[0]) then [s[0]] else []) + Filter(s[1..], f)
  }

  /** Number of rows of `s` that satisfy `f`. */
  function Count<T(!new)>(s: seq<T>, f: T -> bool): nat
  {
    |Filter(s, f)|
  }

  /** The first row of `s` that satisfies `f`, if any. */
  function Find<T(!new)>(s: seq<T>, f: T -> bool): (r: Option<T>)
    ensures r.Some? ==> r.value in s && f(r.value)
    ensures r.None? <==> forall x :: x in s ==> !f(x)
    ensures r.Some? ==> exists i :: 0 <= i < |s| && s[i] == r.value && forall j :: 0 <= j < i ==> !f(s[j])
  {
    if |s| == 0 then None
    else if f(s[0]) then Some(s[0])
    else
      var r := Find(s[1..], f);
      assert s == [s[0]] + s[1..];
      if r.Some? then
        assert exists i :: 0 <= i < |s| && s[i] == r.value && forall j :: 0 <= j < i ==> !f(s[j]) by {
          var i :| 0 <= i < |s[1..]| && s[1..][i] == r.value && forall j :: 0 <= j < i ==> !f(s[1..][j]);
          assert s[i + 1] == r.value;
          forall j | 0 <= j < i + 1 ensures !f(s[j]) {
            if j > 0 { assert s[j] == s[1..][j - 1]; }
          }
        }
        r
      else r
  }

  /** No two rows of `s` share a key. */
  ghost predicate Distinct<T(!new), K>(s: seq<T>, key: T -> K)
  {
    forall i, j :: 0 <= i < |s| && 0 <= j < |s| && i != j ==> key(s[i]) != key(s[j])
  }

  /** Sum over `ks` of the number of rows of `s` related to each key. */
  function SumCounts<T(!new), K(!new,==)>(s: seq<T>, ks: seq<K>, rel: K -> T -> bool): nat
  {
    if |ks| == 0 then 0 else Count(s, rel(ks[0])) + SumCounts(s, ks[1..], rel)
  }

  /** Rows related to at least one of `ks`. */
  function RelatedToSome<T, K(!new,==)>(ks: seq<K>, rel: K -> T -> bool): T -> bool
  {
    x => exists k :: k in ks && rel(k)(x)
  }

  // ---------------------------------------------------------------------
  // Counting lemmas

  lemma {:induction false} FilterAppend<T(!new)>(s: seq<T>, t: seq<T>, f: T -> bool)
    ensures Filter(s + t, f) == Filter(s, f) + Filter(t, f)
  {
    if |s| == 0 {
      assert s + t == t;
    } else {
      assert (s + t)[0] == s[0];
      assert (s + t)[1..] == s[1..] + t;
      FilterAppend(s[1..], t, f);
      var h := if f(s[0]) then [s[0]] else [];
      assert Filter(s + t, f) == h + (Filter(s[1..], f) + Filter(t, f));
      assert Filter(s, f) == h + Filter(s[1..], f);
    }
  }

  lemma CountAppend<T(!new)>(s: seq<T>, t: seq<T>, f: T -> bool)
    ensures Count(s + t, f) == Count(s, f) + Count(t, f)
  {
    FilterAppend(s, t, f);
  }

  lemma {:induction false} FilterAll<T(!new)>(s: seq<T>, f: T -> bool)
    requires forall x :: x in s ==> f(x)
    ensures Filter(s, f) == s
  {
    if |s| > 0 {
      assert forall x :: x in s[1..] ==> x in s;
      FilterAll(s[1..], f);
      assert s == [s[0]] + s[1..];
    }
  }

  lemma {:induction false} CountNone<T(!new)>(s: seq<T>, f: T -> bool)
    requires forall x :: x in s ==> !f(x)
    ensures Count(s, f) == 0
  {
    if |s| > 0 {
      assert forall x :: x in s[1..] ==> x in s;
      CountNone(s[1..], f);
    }
  }

  /** Splitting a condition into two disjoint cases splits the count. */
  lemma {:induction false} CountSplit<T(!new)>(s: seq<T>, f: T -> bool, g: T -> bool, h: T -> bool)
    requires forall x :: x in s ==> (f(x) <==> g(x) || h(x))
    requires forall x :: x in s ==> !(g(x) && h(x))
    ensures Count(s, f) == Count(s, g) + Count(s, h)
  {
    if |s| > 0 {
      assert forall x :: x in s[1..] ==> x in s;
      CountSplit(s[1..], f, g, h);
    }
  }

  /** Counting a weaker condition never gives less. */
  lemma {:induction false} CountMono<T(!new)>(s: seq<T>, f: T -> bool, g: T -> bool)
    requires forall x :: x in s ==> g(x) ==> f(x)
    ensures Count(s, g) <= Count(s, f)
  {
    if |s| > 0 {
      assert forall x :: x in s[1..] ==> x in s;
      CountMono(s[1..], f, g);
    }
  }

  /** Conditions that agree on every row give the same count. */
  lemma {:induction false} CountExt<T(!new)>(s: seq<T>, f: T -> bool, g: T -> bool)
    requires forall x :: x in s ==> (f(x) <==> g(x))
    ensures Count(s, f) == Count(s, g)
  {
    if |s| > 0 {
      assert forall x :: x in s[1..] ==> x in s;
      CountExt(s[1..], f, g);
    }
  }

  /** Conditions that agree on every row select the same rows. */
  lemma {:induction false} FilterExt<T(!new)>(s: seq<T>, f: T -> bool, g: T -> bool)
    requires forall x :: x in s ==> (f(x) <==> g(x))
    ensures Filter(s, f) == Filter(s, g)
  {
    if |s| > 0 {
      assert forall x :: x in s[1..] ==> x in s;
      FilterExt(s[1..], f, g);
    }
  }

  /** Filtering keeps each selected row as often as the table holds it. */
  lemma {:induction false} FilterMultiset<T(!new)>(s: seq<T>, f: T -> bool)
    ensures forall x :: multiset(Filter(s, f))[x] == if f(x) then multiset(s)[x] else 0
  {
    if |s| > 0 {
      FilterMultiset(s[1..], f);
      assert s == [s[0]] + s[1..];
      assert Filter(s, f) == (if f(s[0]) then [s[0]] else []) + Filter(s[1..], f);
    }
  }

  /** A subset is no larger than its superset. */
  lemma CardMono<T>(a: set<T>, b: set<T>)
    requires a <= b
    ensures |a| <= |b|
    decreases a
  {
    if a != {} {
      var x :| x in a;
      CardMono(a - {x}, b - {x});
    }
  }

  /** The same for multisets. */
  lemma MultisetCardMono<T>(a: multiset<T>, b: multiset<T>)
    requires a <= b
    ensures |a| <= |b|
    decreases |a|
  {
    if |a| > 0 {
      var x :| x in a;
      MultisetCardMono(a - multiset{x}, b - multiset{x});
    }
  }

  /** A table holding a sub-multiset of another's rows never counts more. */
  lemma CountSubMultiset<T(!new)>(r: seq<T>, s: seq<T>, f: T -> bool)
    requires multiset(r) <= multiset(s)
    ensures Count(r, f) <= Count(s, f)
  {
    FilterMultiset(r, f);
    FilterMultiset(s, f);
    assert multiset(Filter(r, f)) <= multiset(Filter(s, f));
    MultisetCardMono(multiset(Filter(r, f)), multiset(Filter(s, f)));
  }

  /** Filtering a pre-filtered table by a condition that already implies
      the first filter gives the same rows as filtering once. */
  lemma {:induction false} FilterOfFilter<T(!new)>(s: seq<T>, keep: T -> bool, f: T -> bool)
    requires forall x :: x in s ==> f(x) ==> keep(x)
    ensures Filter(Filter(s, keep), f) == Filter(s, f)
  {
    if |s| > 0 {
      assert forall x :: x in s[1..] ==> x in s;
      FilterOfFilter(s[1..], keep, f);
      var t := Filter(s[1..], keep);
      if keep(s[0]) {
        assert Filter(s, keep) == [s[0]] + t;
        FilterAppend([s[0]], t, f);
      } else {
        assert Filter(s, keep) == t;
      }
    }
  }

  /** Counting within a pre-filtered table when the counted condition
      already implies the filter. */
  lemma CountOfFilter<T(!new)>(s: seq<T>, keep: T -> bool, f: T -> bool)
    requires forall x :: x in s ==> f(x) ==> keep(x)
    ensures Count(Filter(s, keep), f) == Count(s, f)
  {
    FilterOfFilter(s, keep, f);
  }

  // ---------------------------------------------------------------------
  // Distinct keys

  lemma DistinctMembers<T(!new), K(!new)>(s: seq<T>, key: T -> K, a: T, b: T)
    requires Distinct(s, key)
    requires a in s && b in s && key(a) == key(b)
    ensures a == b
  {
    var i :| 0 <= i < |s| && s[i] == a;
    var j :| 0 <= j < |s| && s[j] == b;
  }

  lemma {:induction false} FilterDistinct<T(!new), K(!new)>(s: seq<T>, f: T -> bool, key: T -> K)
    requires Distinct(s, key)
    ensures Distinct(Filter(s, f), key)
  {
    if |s| > 0 {
      var t := Filter(s[1..], f);
      FilterDistinct(s[1..], f, key);
      if f(s[0]) {
        forall y | y in t ensures key(y) != key(s[0]) {
          var j :| 0 <= j < |s[1..]| && s[1..][j] == y;
          assert s[j + 1] == y;
        }
        var r := [s[0]] + t;
        forall i, j | 0 <= i < |r| && 0 <= j < |r| && i != j ensures key(r[i]) != key(r[j]) {
          if i > 0 && j > 0 {
            assert r[i] == t[i - 1] && r[j] == t[j - 1];
          } else if i == 0 {
            assert r[j] in t;
          } else {
            assert r[i] in t;
          }
        }
      }
    }
  }

  lemma AppendDistinct<T(!new), K(!new)>(s: seq<T>, x: T, key: T -> K)
    requires Distinct(s, key)
    requires forall y :: y in s ==> key(y) != key(x)
    ensures Distinct(s + [x], key)
  {
    var r := s + [x];
    forall i, j | 0 <= i < |r| && 0 <= j < |r| && i != j ensures key(r[i]) != key(r[j]) {
      if i < |s| && j < |s| {
        assert r[i] == s[i] && r[j] == s[j];
      } else if i < |s| {
        assert r[i] in s;
      } else {
        assert r[j] in s;
      }
    }
  }

  /** A sequence whose keys are distinct holds as many rows as its set of
      rows. */
  lemma {:induction false} DistinctCard<T(!new), K(!new)>(s: seq<T>, key: T -> K)
    requires Distinct(s, key)
    ensures |s| == |set x | x in s|
  {
    if |s| > 0 {
      var t := s[1..];
      assert Distinct(t, key) by {
        forall i, j | 0 <= i < |t| && 0 <= j < |t| && i != j ensures key(t[i]) != key(t[j]) {
          assert t[i] == s[i + 1] && t[j] == s[j + 1];
        }
      }
      DistinctCard(t, key);
      assert s[0] !in t;
      assert (set x | x in s) == (set x | x in t) + {s[0]};
    }
  }

  /** The set of rows of `s` that satisfy `f`. */
  ghost function Matching<T(!new)>(s: seq<T>, f: T -> bool): (r: set<T>)
    ensures forall x :: x in r <==> x in s && f(x)
  {
    set x | x in s && f(x)
  }

  /** Over rows with distinct keys, the count of the rows that satisfy `f`
      is the size of their set, and so is 0 exactly when no row does. */
  lemma CountIsSetSize<T(!new), K(!new)>(s: seq<T>, f: T -> bool, key: T -> K)
    requires Distinct(s, key)
    ensures Count(s, f) == |Matching(s, f)|
    ensures Count(s, f) == 0 <==> forall x :: x in s ==> !f(x)
  {
    var r := Filter(s, f);
    FilterDistinct(s, f, key);
    DistinctCard(r, key);
    assert (set x | x in r) == Matching(s, f);
    if |r| > 0 {
      assert r[0] in r;
    }
  }

  // ---------------------------------------------------------------------
  // Sums of counts

  /** When no row is related to two different entries of `ks`, summing the
      per-key counts counts each related row exactly once. */
  lemma {:induction false} SumCountsDisjoint<T(!new), K(!new)>(s: seq<T>, ks: seq<K>, rel: K -> T -> bool)
    requires forall x, i, j :: x in s && 0 <= i < |ks| && 0 <= j < |ks| && i != j ==> !(rel(ks[i])(x) && rel(ks[j])(x))
    ensures SumCounts(s, ks, rel) == Count(s, RelatedToSome(ks, rel))
  {
    if |ks| == 0 {
      CountNone(s, RelatedToSome(ks, rel));
    } else {
      var rest := ks[1..];
      forall x, i, j | x in s && 0 <= i < |rest| && 0 <= j < |rest| && i != j
        ensures !(rel(rest[i])(x) && rel(rest[j])(x))
      {
        assert rest[i] == ks[i + 1] && rest[j] == ks[j + 1];
      }
      SumCountsDisjoint(s, rest, rel);
      forall x | x in s
        ensures RelatedToSome(ks, rel)(x) <==> rel(ks[0])(x) || RelatedToSome(rest, rel)(x)
      {
        if RelatedToSome(ks, rel)(x) {
          var k :| k in ks && rel(k)(x);
          var i :| 0 <= i < |ks| && ks[i] == k;
          if i > 0 { assert ks[i] in rest; }
        }
        if RelatedToSome(rest, rel)(x) {
          var k :| k in rest && rel(k)(x);
          assert k in ks;
        }
      }
      forall x | x in s ensures !(rel(ks[0])(x) && RelatedToSome(rest, rel)(x)) {
        if RelatedToSome(rest, rel)(x) {
          var k :| k in rest && rel(k)(x);
          var i :| 0 <= i < |rest| && rest[i] == k;
          assert ks[i + 1] == k;
        }
      }
      CountSplit(s, RelatedToSome(ks, rel), rel(ks[0]), RelatedToSome(rest, rel));
    }
  }
}

=== FILE: sorting.dfy ===
/** `order_by('-field')` and slicing (`[:n]`) over query results: a
    descending sort by an integer key, and taking a prefix. */
module Sorting {

  /** Every row is at least as new (by `key`) as every later row. */
  ghost predicate SortedDesc<T>(s: seq<T>, key: T -> int)
  {
    forall i, j :: 0 <= i < j < |s| ==> key(s[i]) >= key(s[j])
  }

  /** A row at least as new as every row of a descending sequence may be
      put in front of it. */
  lemma ConsSortedDesc<T>(x: T, s: seq<T>, key: T -> int)
    requires SortedDesc(s, key)
    requires forall y :: y in s ==> key(x) >= key(y)
    ensures SortedDesc([x] + s, key)
  {
    var r := [x] + s;
    forall i, j | 0 <= i < j < |r| ensures key(r[i]) >= key(r[j]) {
      assert r[j] == s[j - 1];
      if i > 0 {
        assert r[i] == s[i - 1];
      }
    }
  }

  /** Inserts `x` into a descending sequence, after every row with a
      strictly greater key. */
  function InsertDesc<T(!new)>(x: T, s: seq<T>, key: T -> int): (r: seq<T>)
    requires SortedDesc(s, key)
    ensures SortedDesc(r, key)
    ensures multiset(r) == multiset(s) + multiset{x}
  {
    if |s| == 0 then [x]
    else if key(x) >= key(s[0]) then
      ConsSortedDesc(x, s, key);
      [x] + s
    else
      var t := InsertDesc(x, s[1..], key);
      assert s == [s[0]] + s[1..];
      forall y | y in t ensures key(s[0]) >= key(y) {
        assert y in multiset(t);
        if y != x {
          var k :| 0 <= k < |s[1..]| && s[1..][k] == y;
          assert s[k + 1] == y;
        }
      }
      ConsSortedDesc(s[0], t, key);
      [s[0]] + t
  }

  /** The rows of `s` ordered newest first by `key`. */
  function SortDesc<T(!new)>(s: seq<T>, key: T -> int): (r: seq<T>)
    ensures SortedDesc(r, key)
    ensures multiset(r) == multiset(s)
    ensures |r| == |s|
  {
    if |s| == 0 then []
    else
      assert s == [s[0]] + s[1..];
      InsertDesc(s[0], SortDesc(s[1..], key), key)
  }

  /** The first `n` rows of `s` (all of them when there are fewer). */
  function Take<T>(s: seq<T>, n: nat): (r: seq<T>)
    ensures |r| == if |s| < n then |s| else n
    ensures r <= s
  {
    if |s| < n then s else s[..n]
  }

  /** A prefix of a descending sequence is descending and holds rows at
      least as new as every row left out. */
  lemma TakeSortedDesc<T>(s: seq<T>, n: nat, key: T -> int)
    requires SortedDesc(s, key)
    ensures SortedDesc(Take(s, n), key)
    ensures forall i, j :: 0 <= i < |Take(s, n)| <= j < |s| ==> key(Take(s, n)[i]) >= key(s[j])
  {
  }
}

=== FILE: tallies.dfy ===
/** Results of a poll: the per-choice vote counts add up to the poll's
    total, and the per-choice percentages lie in [0, 100] and add up to
    exactly 100 (in exact arithmetic) once the poll has a vote. */
module Tallies {
  import opened Seqs
  import opened Models

  /** Sum of the percentages shown for `cs`. */
  function SumPercentages(st: Store, cs: seq<Choice>): real
  {
    if |cs| == 0 then 0.0 else VotePercentage(st, cs[0]) + SumPercentages(st, cs[1..])
  }

  // Exact real arithmetic on shares `(n / t) * 100`.

  lemma ShareBounds(n: real, t: real)
    requires 0.0 <= n <= t && t > 0.0
    ensures 0.0 <= (n / t) * 100.0 <= 100.0
    ensures (n / t) * 100.0 == 100.0 <==> n == t
  {
    var q := n / t;
    assert q * t == n;
  }

  lemma ShareAdd(a: real, b: real, t: real)
    requires t > 0.0
    ensures (a / t) * 100.0 + (b / t) * 100.0 == ((a + b) / t) * 100.0
  {
    assert (a / t) * t == a;
    assert (b / t) * t == b;
    assert ((a + b) / t) * t == a + b;
    assert (a / t + b / t) * t == a + b;
  }

  lemma ShareStep(p0: real, rest: real, a: real, b: real, n: real, t: real)
    requires t > 0.0
    requires p0 == (a / t) * 100.0 && rest == (b / t) * 100.0 && n == a + b
    ensures p0 + rest == (n / t) * 100.0
  {
    ShareAdd(a, b, t);
  }

  lemma WholeShare(t: real)
    requires t > 0.0
    ensures (t / t) * 100.0 == 100.0
  {
  }

  /** Every vote on a choice of the poll is counted by exactly one of the
      poll's choices, so the vote counts add up to the poll's total. */
  lemma VoteCountsSumToTotal(st: Store, pid: Id)
    requires Valid(st)
    ensures SumCounts(st.votes, ChoicesOf(st, pid), VotesFor) == TotalVotes(st, pid)
  {
    var cs := ChoicesOf(st, pid);
    FilterDistinct(st.choices, BelongsTo(pid), ChoiceKey);
    forall v, i, j | v in st.votes && 0 <= i < |cs| && 0 <= j < |cs| && i != j
      ensures !(VotesFor(cs[i])(v) && VotesFor(cs[j])(v))
    {
      assert cs[i].id != cs[j].id;
    }
    SumCountsDisjoint(st.votes, cs, VotesFor);
    forall v | v in st.votes ensures RelatedToSome(cs, VotesFor)(v) <==> OnPoll(st, pid)(v) {
      if VoteOnPoll(st, v, pid) {
        var c :| c in st.choices && c.id == v.choice && c.poll == pid;
        assert c in cs && VotesFor(c)(v);
      }
    }
    CountExt(st.votes, RelatedToSome(cs, VotesFor), OnPoll(st, pid));
  }

  /** A choice never has more votes than its poll. */
  lemma VoteCountAtMostTotal(st: Store, c: Choice)
    requires c in st.choices
    ensures VoteCount(st, c) <= TotalVotes(st, c.poll)
  {
    forall v | v in st.votes && VotesFor(c)(v) ensures OnPoll(st, c.poll)(v) {
      assert c in st.choices && c.id == v.choice && c.poll == c.poll;
    }
    CountMono(st.votes, OnPoll(st, c.poll), VotesFor(c));
  }

  /** `Poll.total_votes` counts rows: it is the number of distinct votes on
      the poll's choices, and so is 0 exactly when no vote is on the poll. */
  lemma TotalVotesIsSetSize(st: Store, pid: Id)
    requires Valid(st)
    ensures TotalVotes(st, pid) == |set v | v in st.votes && VoteOnPoll(st, v, pid)|
    ensures TotalVotes(st, pid) == 0 <==> forall v :: v in st.votes ==> !VoteOnPoll(st, v, pid)
  {
    var f := OnPoll(st, pid);
    CountIsSetSize(st.votes, f, VoteKey);
    assert Matching(st.votes, f) == (set v | v in st.votes && VoteOnPoll(st, v, pid));
    assert forall v :: f(v) <==> VoteOnPoll(st, v, pid);
  }

  /** `Choice.vote_count` is the number of distinct votes referencing the
      choice, and so is 0 exactly when no vote references it. */
  lemma VoteCountIsSetSize(st: Store, c: Choice)
    requires Valid(st)
    ensures VoteCount(st, c) == |set v | v in st.votes && v.choice == c.id|
    ensures VoteCount(st, c) == 0 <==> forall v :: v in st.votes ==> v.choice != c.id
  {
    var f := VotesFor(c);
    CountIsSetSize(st.votes, f, VoteKey);
    assert Matching(st.votes, f) == (set v | v in st.votes && v.choice == c.id);
    assert forall v :: f(v) <==> v.choice == c.id;
  }

  /** `Choice.vote_percentage` is the choice's count as a share of its
      poll's total, scaled to 100: multiplied back by the total it gives
      100 times the count. It is 0 exactly when the choice has no vote. */
  lemma VotePercentageIsShare(st: Store, c: Choice)
    requires c in st.choices
    ensures VotePercentage(st, c) * TotalVotes(st, c.poll) as real == 100.0 * VoteCount(st, c) as real
    ensures VotePercentage(st, c) == 0.0 <==> VoteCount(st, c) == 0
  {
    VoteCountAtMostTotal(st, c);
    var n, t := VoteCount(st, c) as real, TotalVotes(st, c.poll) as real;
    if t > 0.0 {
      assert (n / t) * t == n;
    }
  }

  /** A stored choice's percentage lies in [0, 100], and is 0 while its
      poll has no votes. */
  lemma PercentageBounds(st: Store, c: Choice)
    requires c in st.choices
    ensures 0.0 <= VotePercentage(st, c) <= 100.0
    ensures TotalVotes(st, c.poll) == 0 ==> VotePercentage(st, c) == 0.0
    ensures VotePercentage(st, c) == 100.0 <==> TotalVotes(st, c.poll) > 0 && VoteCount(st, c) == TotalVotes(st, c.poll)
  {
    VoteCountAtMostTotal(st, c);
    if TotalVotes(st, c.poll) > 0 {
      ShareBounds(VoteCount(st, c) as real, TotalVotes(st, c.poll) as real);
    }
  }

  lemma {:induction false} SumPercentagesScaled(st: Store, cs: seq<Choice>, pid: Id)
    requires forall c :: c in cs ==> c.poll == pid
    requires TotalVotes(st, pid) > 0
    ensures SumPercentages(st, cs) == (SumCounts(st.votes, cs, VotesFor) as real / TotalVotes(st, pid) as real) * 100.0
  {
    if |cs| > 0 {
      assert forall c :: c in cs[1..] ==> c in cs;
      SumPercentagesScaled(st, cs[1..], pid);
      var t := TotalVotes(st, pid) as real;
      var a := VoteCount(st, cs[0]) as real;
      var b := SumCounts(st.votes, cs[1..], VotesFor) as real;
      ShareStep(VotePercentage(st, cs[0]), SumPercentages(st, cs[1..]), a, b, SumCounts(st.votes, cs, VotesFor) as real, t);
    } else {
      assert SumCounts(st.votes, cs, VotesFor) == 0;
      assert (0.0 / (TotalVotes(st, pid) as real)) * 100.0 == 0.0;
    }
  }

  /** Once a poll has a vote, its choices' percentages add up to 100. */
  lemma PercentagesSumTo100(st: Store, pid: Id)
    requires Valid(st)
    requires TotalVotes(st, pid) > 0
    ensures SumPercentages(st, ChoicesOf(st, pid)) == 100.0
  {
    SumPercentagesScaled(st, ChoicesOf(st, pid), pid);
    VoteCountsSumToTotal(st, pid);
    WholeShare(TotalVotes(st, pid) as real);
  }

  /** While a poll has no votes, every one of its choices shows 0. */
  lemma {:induction false} PercentagesZeroWithoutVotes(st: Store, cs: seq<Choice>, pid: Id)
    requires forall c :: c in cs ==> c.poll == pid
    requires TotalVotes(st, pid) == 0
    ensures SumPercentages(st, cs) == 0.0
    ensures forall c :: c in cs ==> VotePercentage(st, c) == 0.0
  {
    if |cs| > 0 {
      assert forall c :: c in cs[1..] ==> c in cs;
      PercentagesZeroWithoutVotes(st, cs[1..], pid);
    }
  }
}

=== FILE: voting.dfy ===
/** Casting a vote: the guard sequence of the vote view (poll found, voting
    open, not yet voted, valid choice) and the one-vote-per-(user, poll)
    invariant it maintains. The Vote table declares no uniqueness, so the
    invariant rests on the already-voted check alone. */
module Voting {
  import opened Wrappers
  import opened Seqs
  import opened Models

  datatype VoteOutcome =
    | PollNotFound
    | VotingClosed
    | AlreadyVoted
    | InvalidChoice
    | Recorded(vote: Vote)

  function PollWithId(pid: Id): Poll -> bool { (p: Poll) => p.id == pid }

  /** Looking a poll up by primary key. */
  function FindPoll(st: Store, pid: Id): (r: Option<Poll>)
    ensures r.Some? ==> r.value in st.polls && r.value.id == pid
    ensures r.None? <==> !HasPoll(st, pid)
  {
    Find(st.polls, PollWithId(pid))
  }

  function UserPollVotes(st: Store, uid: Id, pid: Id): Vote -> bool
  {
    (v: Vote) => v.user == uid && VoteOnPoll(st, v, pid)
  }

  /** The user has a vote on some choice of the poll. */
  predicate HasVoted(st: Store, uid: Id, pid: Id)
  {
    exists v :: v in st.votes && v.user == uid && VoteOnPoll(st, v, pid)
  }

  /** The user's vote on the poll, as the detail and results pages look it
      up (the first matching row). */
  function UserVote(st: Store, uid: Id, pid: Id): (r: Option<Vote>)
    ensures r.Some? <==> HasVoted(st, uid, pid)
    ensures r.Some? ==> r.value in st.votes && r.value.user == uid && VoteOnPoll(st, r.value, pid)
  {
    Find(st.votes, UserPollVotes(st, uid, pid))
  }

  function ChoiceOfPoll(cid: Id, pid: Id): Choice -> bool { (c: Choice) => c.id == cid && c.poll == pid }

  /** The submitted choice among the poll's choices; `None` when no choice
      was submitted or the id names no choice of this poll. */
  function SelectChoice(st: Store, pid: Id, choice: Option<Id>): (r: Option<Choice>)
    ensures r.Some? ==> r.value in st.choices && r.value.poll == pid && choice == Some(r.value.id)
    ensures r.None? <==> choice.None? || forall c :: c in st.choices ==> !(c.id == choice.value && c.poll == pid)
  {
    if choice.None? then None else Find(st.choices, ChoiceOfPoll(choice.value, pid))
  }

  /** The vote view. Each refusal leaves the store unchanged; a recorded
      vote is the one new row (user, selected choice, now). */
  function CastVote(st: Store, uid: Id, pid: Id, choice: Option<Id>, now: Time): (res: (Store, VoteOutcome))
    ensures !res.1.Recorded? ==> res.0 == st
    ensures res.1 == PollNotFound <==> !HasPoll(st, pid)
    ensures res.1 == VotingClosed <==> FindPoll(st, pid).Some? && !IsVotingOpen(FindPoll(st, pid).value, now)
    ensures res.1 == AlreadyVoted <==>
      FindPoll(st, pid).Some? && IsVotingOpen(FindPoll(st, pid).value, now) && HasVoted(st, uid, pid)
    ensures res.1 == InvalidChoice <==>
      FindPoll(st, pid).Some? && IsVotingOpen(FindPoll(st, pid).value, now) && !HasVoted(st, uid, pid)
      && SelectChoice(st, pid, choice).None?
    ensures res.1.Recorded? <==>
      FindPoll(st, pid).Some? && IsVotingOpen(FindPoll(st, pid).value, now) && !HasVoted(st, uid, pid)
      && choice.Some? && exists c :: c in st.choices && c.id == choice.value && c.poll == pid
    ensures res.1.Recorded? ==>
      && res.1.vote == Vote(st.nextVote, uid, choice.value, now)
      && res.0 == st.(votes := st.votes + [res.1.vote], nextVote := st.nextVote + 1)
  {
    match FindPoll(st, pid)
    case None => (st, PollNotFound)
    case Some(poll) =>
      if !IsVotingOpen(poll, now) then (st, VotingClosed)
      else if UserVote(st, uid, pid).Some? then (st, AlreadyVoted)
      else
        match SelectChoice(st, pid, choice)
        case None => (st, InvalidChoice)
        case Some(selected) =>
          var v := Vote(st.nextVote, uid, selected.id, now);
          (st.(votes := st.votes + [v], nextVote := st.nextVote + 1), Recorded(v))
  }

  // ---------------------------------------------------------------------
  // One vote per (user, poll)

  /** No user has two votes on the choices of one poll. */
  ghost predicate OneVotePerPoll(st: Store)
  {
    forall uid, pid :: Count(st.votes, UserPollVotes(st, uid, pid)) <= 1
  }

  /** With unique choice ids a vote is on at most one poll. */
  lemma VoteOnOnePoll(st: Store, v: Vote, p: Id, q: Id)
    requires Distinct(st.choices, ChoiceKey)
    requires VoteOnPoll(st, v, p) && VoteOnPoll(st, v, q)
    ensures p == q
  {
    var c :| c in st.choices && c.id == v.choice && c.poll == p;
    var d :| d in st.choices && d.id == v.choice && d.poll == q;
    DistinctMembers(st.choices, ChoiceKey, c, d);
  }

  /** Appending a vote with the next id, by an existing user on an
      existing choice, keeps the store valid. */
  lemma AppendVoteValid(st: Store, v: Vote)
    requires Valid(st) && HasUser(st, v.user) && HasChoice(st, v.choice) && v.id == st.nextVote
    ensures Valid(st.(votes := st.votes + [v], nextVote := st.nextVote + 1))
  {
    var r := st.(votes := st.votes + [v], nextVote := st.nextVote + 1);
    AppendDistinct(st.votes, v, VoteKey);
    assert forall w :: w in r.votes ==> w in st.votes || w == v;
    assert NoOrphans(r);
  }

  /** A recorded vote keeps the store valid. */
  lemma CastVoteValid(st: Store, uid: Id, pid: Id, choice: Option<Id>, now: Time)
    requires Valid(st) && HasUser(st, uid)
    ensures Valid(CastVote(st, uid, pid, choice, now).0)
  {
    var out := CastVote(st, uid, pid, choice, now).1;
    if out.Recorded? {
      var c :| c in st.choices && c.id == choice.value && c.poll == pid;
      AppendVoteValid(st, out.vote);
    }
  }

  /** Casting a vote keeps at most one vote per (user, poll): the
      already-voted check runs before the only insert. */
  lemma CastVoteKeepsOneVote(st: Store, uid: Id, pid: Id, choice: Option<Id>, now: Time)
    requires Valid(st) && OneVotePerPoll(st)
    ensures OneVotePerPoll(CastVote(st, uid, pid, choice, now).0)
  {
    var (r, out) := CastVote(st, uid, pid, choice, now);
    if out.Recorded? {
      var nv := out.vote;
      forall u, p ensures Count(r.votes, UserPollVotes(r, u, p)) <= 1 {
        CountAppend(st.votes, [nv], UserPollVotes(r, u, p));
        CountExt(st.votes, UserPollVotes(r, u, p), UserPollVotes(st, u, p));
        if UserPollVotes(r, u, p)(nv) {
          var c :| c in st.choices && c.id == choice.value && c.poll == pid;
          assert VoteOnPoll(st, nv, pid);
          VoteOnOnePoll(st, nv, p, pid);
          CountNone(st.votes, UserPollVotes(st, uid, pid));
        }
      }
    }
  }

  /** A recorded vote adds one to the selected choice's count and to its
      poll's total, and changes no other choice's count or poll's total. */
  lemma CastVoteCounts(st: Store, uid: Id, pid: Id, choice: Option<Id>, now: Time, c: Choice, q: Id)
    requires Valid(st)
    requires CastVote(st, uid, pid, choice, now).1.Recorded?
    requires c in st.choices
    ensures VoteCount(CastVote(st, uid, pid, choice, now).0, c) == VoteCount(st, c) + (if choice == Some(c.id) then 1 else 0)
    ensures TotalVotes(CastVote(st, uid, pid, choice, now).0, q) == TotalVotes(st, q) + (if q == pid then 1 else 0)
  {
    var (r, out) := CastVote(st, uid, pid, choice, now);
    var nv := out.vote;
    CountAppend(st.votes, [nv], VotesFor(c));
    CountAppend(st.votes, [nv], OnPoll(r, q));
    CountExt(st.votes, OnPoll(r, q), OnPoll(st, q));
    var sel :| sel in st.choices && sel.id == choice.value && sel.poll == pid;
    assert VoteOnPoll(st, nv, pid);
    if VoteOnPoll(st, nv, q) {
      VoteOnOnePoll(st, nv, q, pid);
    }
  }

  /** Once a user's vote is recorded, any further vote by them on the same
      poll, with any choice, is refused as already voted and changes
      nothing. */
  lemma SecondVoteRefused(st: Store, uid: Id, pid: Id, choice: Option<Id>, now: Time, choice': Option<Id>, now': Time)
    requires CastVote(st, uid, pid, choice, now).1.Recorded?
    requires IsVotingOpen(FindPoll(st, pid).value, now')
    ensures CastVote(CastVote(st, uid, pid, choice, now).0, uid, pid, choice', now')
         == (CastVote(st, uid, pid, choice, now).0, AlreadyVoted)
  {
    var (r, out) := CastVote(st, uid, pid, choice, now);
    assert out.vote in r.votes;
    var c :| c in st.choices && c.id == choice.value && c.poll == pid;
    assert VoteOnPoll(r, out.vote, pid);
  }

  // ---------------------------------------------------------------------
  // Sequences of votes

  datatype VoteRequest = VoteRequest(user: Id, poll: Id, choice: Option<Id>, now: Time)

  /** The store after handling the requests in order. */
  function CastVotes(st: Store, reqs: seq<VoteRequest>): Store
    decreases |reqs|
  {
    if |reqs| == 0 then st
    else CastVotes(CastVote(st, reqs[0].user, reqs[0].poll, reqs[0].choice, reqs[0].now).0, reqs[1..])
  }

  /** Any sequence of votes by existing users keeps the store valid and
      keeps at most one vote per (user, poll). */
  lemma {:induction false} CastVotesKeepOneVote(st: Store, reqs: seq<VoteRequest>)
    requires Valid(st) && OneVotePerPoll(st)
    requires forall q :: q in reqs ==> HasUser(st, q.user)
    ensures Valid(CastVotes(st, reqs)) && OneVotePerPoll(CastVotes(st, reqs))
    decreases |reqs|
  {
    if |reqs| > 0 {
      var q := reqs[0];
      var st1 := CastVote(st, q.user, q.poll, q.choice, q.now).0;
      CastVoteValid(st, q.user, q.poll, q.choice, q.now);
      CastVoteKeepsOneVote(st, q.user, q.poll, q.choice, q.now);
      assert st1.users == st.users;
      forall x | x in reqs[1..] ensures HasUser(st1, x.user) {
        assert x in reqs;
        var u :| u in st.users && u.id == x.user;
        assert u in st1.users;
      }
      CastVotesKeepOneVote(st1, reqs[1..]);
    }
  }
}

=== FILE: wrappers.dfy ===
/** Optional values and validation results, used wherever the application has
    a nullable value or raises a validation error. */
module Wrappers {

  datatype Option<+T> = None | Some(value: T)

  datatype Result<+T, +E> = Ok(value: T) | Err(error: E)
}
